=== FILE: README.md ===
# raytracing-rt in Dafny

A model of the core of a small CPU Monte Carlo path tracer (Aekhy/raytracing-rt).
The renderer shoots one ray per pixel and sample into a scene of spheres, follows
each ray through diffuse bounces with Russian roulette, averages the samples, adds
the average into a per-pixel accumulation buffer frame after frame, and shows the
accumulated mean packed as RGBA bytes.

The model covers four pieces and the data they work on:

- **Ray–sphere intersection** (`Intersection`): `TraceRay`, `ClosestHit` and `Miss`.
  Per sphere, the nearer root at least `eps` ahead. Across spheres, the first strictly
  nearest one. A sentinel payload on a miss.
- **The path integrator** (`Integrator`): `Li`, the sky colour on a miss, the emission
  seed, the roulette probability, the early return, and the recursive bounce. `Li` takes
  a `Density` that selects the sampler. `ConstantDensity` is the program as written: the
  sampler divides by the constant pdf 1/pi, so a bounce is weighted by cos · albedo.
  `CosineDensity` is the corrected sampler of the first finding, which weighs by the
  albedo alone. Every integrator property below is stated and proved for both.
- **The diffuse sampler** (`Sampling`): `ons`, `local_to_world`,
  `cosine_weighted_hemisphere`, and the diffuse `sample`/`eval`/`pdf`.
- **Frame accumulation and pixel output** (`Accumulation`, `Pixels`): the per-pixel body
  of `Render`, the frame counter, `OnResize`, and `Utils::ConvertToRGBA`.
- **Data** (`Vectors`, `Materials`, `Scenes`): glm vectors over `real`, the `Material`
  record with its defaults and `GetEmission`, spheres, and the scene's `AddSphere` and
  `AddMaterial`.

Modelling choices:

- Floats are reals. `eps` is 1/10000, and `std::numeric_limits<float>::max()` is kept
  as `FloatMax`, the initial hit distance.
- `sqrt`, `cos` and `sin` cannot be defined here. They travel as a `MathLib` value,
  and every property that needs them assumes the laws in `Vectors.Sound`: sqrt is
  non-negative and squares back, and cos² + sin² = 1.
- Random draws are parameters. `Li` reads an explicit stream of draws in [0, 1): one
  roulette draw per hit, then two hemisphere draws per surviving bounce. Its recursion
  is bounded by the stream's length.
- States the source leaves undefined are returned as faults (`Result`), not excluded
  by preconditions: a material index out of range, a metallic material (its sampler
  has no return), a zero-radius sphere's `normalize(0)`, a draw stream that runs out,
  a frame with no samples, and buffers too small because `width * height` wrapped
  around 2^32.
- A zero ray direction makes the source divide 0 by 0. The NaN root fails every later
  comparison, so the model gives no candidate for that sphere.
- `Sampler.cpp` and the call in `Renderer.cpp:180` disagree about `sample`'s
  signature. The call, like `Sampler.h:10`, passes the new direction back by
  reference. `Sampler.cpp:11` takes it by value, and its `omega = worldDir` is lost.
  The model follows the call: `sample` returns both the direction and the multiplier.

## Model

| member | source | states |
|---|---|---|
| Vectors.Normalize | raytracing-rt/src/Renderer.cpp:284 | glm::normalize: a non-zero vector becomes a unit vector pointing the same way, as a positive multiple of it; the zero vector stays zero |
| Vectors.CrossOrthogonal | raytracing-rt/src/Sampler.cpp:54 | the cross product is orthogonal to both of its arguments |
| Materials.EmissionChannels | raytracing-rt/src/Material.hpp:21 | GetEmission is EmissionPower times EmissionColor in every channel; zero power or zero colour emits nothing |
| Materials.DefaultMaterialIsDarkWhiteDiffuse | raytracing-rt/src/Material.hpp:13-21 | a default material emits nothing, has albedo (1, 1, 1) and is DIFFUSE |
| Materials.Emission | raytracing-rt/src/Material.hpp:21 | GetEmission: a material with zero power or zero colour emits nothing |
| Materials.EmissionNonNegative | raytracing-rt/src/Material.hpp:21 | non-negative power and colour give non-negative emission |
| Scenes.AddSphere | raytracing-rt/src/Scene.cpp:25-27 | exactly one sphere is appended at the end; earlier spheres and all materials are unchanged |
| Scenes.AddSphereAt | raytracing-rt/src/Scene.cpp:20-23 | the three-argument overload appends Sphere{position, radius, materialIndex} and changes nothing else |
| Scenes.DefaultSphereFields | raytracing-rt/src/Sphere.hpp:8-10 | a default sphere sits at the origin with radius 0.5 and material index 0 |
| Scenes.AddMaterial | raytracing-rt/src/Scene.cpp:7-18 | the empty body leaves spheres and materials as they were |
| Sampling.OnsDenominatorPositive | raytracing-rt/src/Sampler.cpp:44-52 | the branch choice keeps the squared length under the square root positive for every non-zero vector |
| Sampling.TangentIsUnitOrthogonal | raytracing-rt/src/Sampler.cpp:44-52 | the tangent from either branch, scaled by 1/sqrt of the branch's denominator, is orthogonal to v1 and has unit length |
| Sampling.Ons | raytracing-rt/src/Sampler.cpp:43-55 | for a non-zero v1: v2 is a unit vector orthogonal to v1, and v3 = v1 x v2 is orthogonal to both |
| Sampling.OnsOrthonormal | raytracing-rt/src/Sampler.cpp:43-55 | for a unit v1 the bitangent also has unit length, so (v2, v3, v1) is an orthonormal frame |
| Sampling.LocalToWorld | raytracing-rt/src/Sampler.cpp:57-61 | the world direction's dot product with n is localDir.z times the squared length of n |
| Sampling.CosineWeightedHemisphere | raytracing-rt/src/Sampler.cpp:63-75 | for u1 in [0, 1): z > 0, x² + y² = u1, and the direction has unit length |
| Sampling.EvalOverPdfAsWritten | raytracing-rt/src/Sampler.cpp:26-37 | for DIFFUSE, eval / pdf = (albedo / pi) / (1 / pi) is the albedo |
| Sampling.CosineTimesEvalOverPdfAsWritten | raytracing-rt/src/Sampler.cpp:22-37 | with the 1/pi density, cos * eval / pdf is cos times the albedo, not the albedo |
| Sampling.SampleAsWritten | raytracing-rt/src/Sampler.cpp:11-24 | sample as written: present exactly for DIFFUSE, direction local_to_world of the drawn hemisphere direction, multiplier cos times albedo |
| Sampling.SampleAsWrittenScalesByCosine | raytracing-rt/src/Sampler.cpp:11-24 | for a unit normal and non-negative albedo the as-written multiplier is sqrt(1 - u1) times the albedo, non-negative and at most the albedo |
| Sampling.SampleAsWrittenHalvesWhite | raytracing-rt/src/Sampler.cpp:33-37 | with the 1/pi density, a white surface hit along its normal with u1 = 0.75 hands back (1/2, 1/2, 1/2) instead of its albedo |
| Sampling.Sample | raytracing-rt/src/Sampler.cpp:11-37 | sample with the cosine-weighted density cos/pi: present exactly for DIFFUSE, the multiplier is the albedo, and the direction lies in the normal's open hemisphere |
| Sampling.DrawnCosinePositive | raytracing-rt/src/Sampler.cpp:57-75 | every drawn direction has a positive dot product with the normal |
| Sampling.CosineCancels | raytracing-rt/src/Sampler.cpp:22 | cos * eval / (cos / pi) is the albedo for any non-zero cosine |
| Intersection.Candidate | raytracing-rt/src/Renderer.cpp:241-259 | a negative discriminant gives no candidate; any candidate is at least eps and a root of a t² + b t + c = 0 |
| Intersection.CandidateIsNearestRoot | raytracing-rt/src/Renderer.cpp:243-259 | the candidate is the smallest root at least eps; for a non-zero direction there is no candidate exactly when no such root exists |
| Intersection.FormulaPicksNearest | raytracing-rt/src/Renderer.cpp:251-259 | every root at least eps is no nearer than the near value when that value is at least eps, and otherwise no nearer than the far value, which is then at least eps |
| Intersection.NoRootWhenDiscriminantNegative | raytracing-rt/src/Renderer.cpp:247-249 | with a > 0, a negative discriminant leaves no root at all, so skipping the sphere loses nothing |
| Intersection.RootFormula | raytracing-rt/src/Renderer.cpp:251-255 | both values of the quadratic formula are roots |
| Intersection.RootIsNearOrFar | raytracing-rt/src/Renderer.cpp:251-255 | every root is one of the two values the loop tries |
| Intersection.LeadingCoefficient | raytracing-rt/src/Renderer.cpp:243 | a = dot(d, d) is non-negative and zero exactly for a zero direction |
| Intersection.RootsLieOnSphere | raytracing-rt/src/Renderer.cpp:241-245 | t is a root exactly when the point origin + t·direction is at distance radius from the centre |
| Intersection.Scan | raytracing-rt/src/Renderer.cpp:235-266 | the loop selects none exactly when no candidate is below FloatMax; otherwise a valid index whose candidate is its distance, no farther than any candidate, strictly nearer than every earlier one (first index wins ties) |
| Intersection.ScanSelectsFirstNearest | raytracing-rt/src/Renderer.cpp:261-265 | the selection rule determines the result: the first nearest eligible sphere is the one chosen |
| Intersection.ClosestHit | raytracing-rt/src/Renderer.cpp:274-288 | the payload holds the distance and index, WorldPosition = origin + t·direction, and WorldNormal = normalize(WorldPosition − centre) |
| Intersection.HitNormalIsRadial | raytracing-rt/src/Renderer.cpp:282-285 | at a root on a sphere of non-zero radius the normal is a unit vector pointing from the centre through the hit point |
| Intersection.RootOffCentre | raytracing-rt/src/Renderer.cpp:282-284 | at a root on a sphere of non-zero radius the hit point is not the centre, so normalize has a non-zero argument |
| Intersection.TraceRay | raytracing-rt/src/Renderer.cpp:233-294 | Miss (HitDistance −1) exactly when no sphere yields an eligible root; otherwise a hit at the chosen index and its candidate distance, at least eps, nearest, first on ties |
| Intersection.AddSphereKeepsOrImprovesHit | raytracing-rt/src/Renderer.cpp:261-265 | adding a sphere to the scene never turns a hit into a miss and never moves the nearest hit further away |
| Integrator.RouletteProbability | raytracing-rt/src/Renderer.cpp:165-173 | 1 below bounce 3; afterwards in [0, 0.99], equal to 0, 0.99 or a throughput channel, and at least every channel unless capped |
| Integrator.NoRouletteBeforeMinBounces | raytracing-rt/src/Renderer.cpp:165-175 | a draw in [0, 1) never ends a path before bounce 3 |
| Integrator.HitMaterial | raytracing-rt/src/Renderer.cpp:160-161 | the material found is `Materials[sphere.MaterialIndex]` of the hit sphere, and it is found exactly when that index is within the material list |
| Integrator.Scattered | raytracing-rt/src/Sampler.cpp:11-37 | sampler.sample under the chosen density: present exactly for DIFFUSE, the direction is local_to_world of the drawn direction with a positive cosine, and the multiplier is cos · albedo as written (albedo with the cosine density), non-negative for a non-negative albedo |
| Integrator.Li | raytracing-rt/src/Renderer.cpp:149-158 | under either density, a ray that hits nothing returns the sky colour (0.5, 0.6, 0.8) and consumes no draws |
| Integrator.Bounce | raytracing-rt/src/Renderer.cpp:160-184 | a roulette draw at or above rr_prob returns exactly the material's emission; a surviving metallic hit reports that the sampler has no metallic branch |
| Integrator.Continue | raytracing-rt/src/Renderer.cpp:181-184 | the radiance += step: a fault from the recursive Li passes up unchanged; otherwise rr_prob times (result − emission) is multiplier · incoming, so the incoming radiance is divided by rr_prob, and with rr_prob = 1 the result is emission + multiplier · incoming |
| Integrator.LiRouletteStopReturnsEmission | raytracing-rt/src/Renderer.cpp:175 | for a ray that hits a sphere with a valid material, a failed roulette draw makes Li return the emission |
| Integrator.EarlyBounceWeighsByMultiplier | raytracing-rt/src/Renderer.cpp:165-182 | before bounce 3 a diffuse hit always scatters; the result is emission + w · (incoming radiance) with throughput · w passed down, where w is the sampler's multiplier: cos · albedo as written, the albedo with the cosine density |
| Integrator.ScatterStep | raytracing-rt/src/Renderer.cpp:178-182 | a surviving diffuse bounce takes the sampler's multiplier w (cos · albedo as written), continues along the sampled ray with throughput · w / rr_prob, and adds w · incoming / rr_prob to the emission; w is non-negative for a non-negative albedo |
| Integrator.LiNonNegative | raytracing-rt/src/Renderer.cpp:149-185 | under either density, with non-negative emission and albedo everywhere, every radiance Li returns is non-negative |
| Integrator.BounceNonNegative | raytracing-rt/src/Renderer.cpp:160-184 | the same for the bounce at a hit on a non-negative material, under either density |
| Integrator.ScatterNonNegative | raytracing-rt/src/Renderer.cpp:178-182 | the scattering case of the same: emission plus w · incoming / rr_prob is non-negative, with w = cos · albedo as written or the albedo |
| Pixels.Quantize | raytracing-rt/src/Renderer.cpp:19-22 | a channel in [0, 1] becomes the byte floor(channel · 255) |
| Pixels.QuantizeTruncates | raytracing-rt/src/Renderer.cpp:19-22 | the byte is the whole number n with n ≤ channel · 255 < n + 1; 0 maps to 0 and 1 to 255 |
| Pixels.QuantizeHalf | raytracing-rt/src/Renderer.cpp:22 | alpha 1/2 becomes the byte 127 |
| Pixels.Pack | raytracing-rt/src/Renderer.cpp:24 | the shift-and-or packing is the positional sum r + 2^8 g + 2^16 b + 2^24 a |
| Pixels.UnpackPack | raytracing-rt/src/Renderer.cpp:24 | unpacking a packed word recovers r, g, b and a |
| Pixels.PackUnpack | raytracing-rt/src/Renderer.cpp:24 | every word is the packing of its own four bytes |
| Pixels.ConvertToRgba | raytracing-rt/src/Renderer.cpp:17-26 | the packed word's bytes are the quantized r, g, b and a, in bits 0-7, 8-15, 16-23 and 24-31 |
| Pixels.OpaqueAlphaByte | raytracing-rt/src/Renderer.cpp:22-24 | a colour with alpha 1 has 0xFF in its top byte |
| Accumulation.OnResize | raytracing-rt/src/Renderer.cpp:29-57 | an unchanged size is a no-op; a new size reallocates both buffers with fresh contents and keeps the frame counter |
| Accumulation.OnResizeIdempotent | raytracing-rt/src/Renderer.cpp:31-34 | resizing twice to the same size is the same as resizing once |
| Accumulation.ResizeAndReset | raytracing-rt/src/Renderer.cpp:29-57 | the corrected resize: same image, buffers and pixels as OnResize, and a size change resets the frame counter to 1 |
| Accumulation.Sum | raytracing-rt/src/Renderer.cpp:91-108 | the sample sum: a single sample sums to itself, non-negative samples to a non-negative sum |
| Accumulation.Average | raytracing-rt/src/Renderer.cpp:109 | radiance /= N_MC is the mean: N_MC times the result is the sum of the samples, n equal samples average to that sample, and non-negative samples give a non-negative average |
| Accumulation.Accumulated | raytracing-rt/src/Renderer.cpp:66-112 | on frame 1 the slot becomes (average, 1); on later frames each of r, g and b grows by the matching average channel and alpha by 1 |
| Accumulation.Displayed | raytracing-rt/src/Renderer.cpp:114-117 | each channel of acc / FrameIndex is shown unchanged inside [0, 1], as 1 above it and as 0 below it; so the result is in [0, 1] and equals the mean whenever the mean is in range |
| Accumulation.Render | raytracing-rt/src/Renderer.cpp:59-146 | fails only without an image, without samples, or with buffers of the wrong size; otherwise every slot is updated from its average, every pixel shows its clamped mean, and the counter becomes FrameIndex + 1, or 1 without accumulation |
| Accumulation.RenderFrames | raytracing-rt/src/Renderer.cpp:138-141 | accumulated frames keep the image and a frame counter of at least 1 |
| Accumulation.AccumulationSumsFrames | raytracing-rt/src/Renderer.cpp:66-145 | from a reset counter, k accumulated frames leave the counter at k + 1 and each slot holding the sum of its k averages, with alpha k |
| Accumulation.AccumulatedFramesAreOpaque | raytracing-rt/src/Renderer.cpp:111-118 | after one or more accumulated frames from a reset counter, every pixel's alpha byte is 0xFF |
| Accumulation.ResizeKeepsStaleFrameIndex | raytracing-rt/src/Renderer.cpp:29-57 | a 1x1 white frame, a resize to 2x1 onto zeroed memory, and another white frame leave the counter at 2 after the resize and pixel 0 with alpha byte 127 |
| Accumulation.FirstFrameBeforeResize | raytracing-rt/src/Renderer.cpp:59-118 | one white frame on a reset 1x1 image accumulates (1, 1, 1, 1) and moves the counter to 2 |
| Accumulation.SecondFrameAfterResize | raytracing-rt/src/Renderer.cpp:59-118 | a white frame rendered onto a zeroed 2x1 buffer with the stale counter 2 shows alpha byte 127 at pixel 0 |
| Accumulation.SecondFrameSlot | raytracing-rt/src/Renderer.cpp:66-117 | in that frame pixel 0 accumulates (1, 1, 1, 1) and is shown divided by the stale counter 2 |
| Accumulation.HalfAlphaShown | raytracing-rt/src/Renderer.cpp:17-24 | an accumulated white (1, 1, 1, 1) divided by frame index 2 is shown with alpha byte 127 |
| Accumulation.ResizeAndResetClearsHistory | raytracing-rt/src/Renderer.cpp:29-67 | with the corrected resize, the first frame after a size change ignores the fresh buffer's contents: each slot is that frame's average with alpha 1, and every pixel is opaque |

## Left out

- Floating-point rounding: vectors are exact reals. One effect is not modelled: a `double` draw just below 1 can round up to `1.0f`.
- The random generator (MyRand): draws are parameters in [0, 1).
- The parallel `std::for_each` over rows and columns. Each pixel writes only its own slot, so the per-pixel body is modelled once per slot.
- The camera: ray origins and directions, and the anti-aliasing offsets. `Render` receives each pixel's radiance samples as a parameter. The Camera sources are not part of this model.
- `PerPixel`, the unused alternative integrator, because `Render` never calls it.
- The metallic branches of `sample`, `eval` and `pdf`, because they have no return statement. `Li` reports a metallic hit as the fault `NoMetallicBranch`.
- The cubemap, scene save/load, JSON serialization and the ImGui application, because they are I/O and UI.
- The frame counter's integer width. Its declaration is not part of this model, so `frameIndex` is an unbounded natural that never wraps.
- `ResetFrameIndex`: its body is not part of this model. The corrected resize sets the counter to 1 directly.
- Intersection.CandidateIsNearestRoot: the "no root when no candidate" half is stated only for a non-zero direction. With a zero direction every `t` solves the equation when the origin lies on the sphere, but the source still finds no candidate.

## Findings

| source | as written | input that shows it | evidently intended | confidence | as-written member | corrected member |
|---|---|---|---|---|---|---|
| raytracing-rt/src/Sampler.cpp:33-37 | the diffuse `pdf` is the constant 1/pi, but `cosine_weighted_hemisphere` draws directions with density cos/pi, so `sample` returns cos · albedo and every bounce is darkened by its cosine | normal (0, 0, 1), albedo (1, 1, 1), u1 = 0.75: the cosine is 1/2 and the multiplier is (1/2, 1/2, 1/2) | pdf = cos/pi, so cos · eval / pdf is exactly the albedo | high, not executed | Sampling.SampleAsWrittenHalvesWhite | Sampling.Sample |
| raytracing-rt/src/Renderer.cpp:29-57 | `OnResize` reallocates the accumulation buffer but leaves `m_FrameIndex` alone. On the next frame the buffer is not cleared, and the sum of one frame is divided by the old count. | one accumulated 1x1 frame of white (counter 2), resize to 2x1 onto zeroed memory, another white frame: pixel 0 shows grey with alpha byte 127 | a size change restarts accumulation with counter 1 | medium, not executed | Accumulation.ResizeKeepsStaleFrameIndex | Accumulation.ResizeAndReset |

=== FILE: accumulation.dfy ===
/**
 * The renderer's frame state (Renderer::OnResize and the per-pixel body of
 * Renderer::Render): an image size, a frame counter, a buffer that sums each
 * pixel's per-frame sample averages, and the packed pixels shown on screen,
 * each the accumulated sum divided by the frame counter and clamped to [0, 1].
 *
 * The radiance samples a frame takes for each pixel (one Li call per sample)
 * come in as a parameter; the order in which the parallel loops visit pixels
 * does not matter because each pixel only touches its own slot.
 */
module Accumulation {
  import opened Vectors
  import opened Pixels

  /** 2^32: width * height is computed in 32-bit unsigned arithmetic. */
  const U32: int := 0x1_0000_0000

  datatype Dims = Dims(width: nat, height: nat)

  /** The element count `new T[width * height]` allocates. */
  function AllocationSize(d: Dims): nat {
    (d.width * d.height) % U32
  }

  /** The pixels Render visits: every (x, y) with x < width and y < height. */
  function PixelCount(d: Dims): nat {
    d.width * d.height
  }

  /**
   * The renderer's frame state: the final image's size (none before the first
   * resize), m_FrameIndex, m_AccumulationData and m_ImageData.
   */
  datatype RendererState = RendererState(
    image: Option<Dims>,
    frameIndex: nat,
    accumulation: seq<Vec4>,
    pixels: seq<bv32>)

  /**
   * OnResize as written: nothing happens when the size is unchanged; otherwise
   * both buffers are reallocated, holding whatever the fresh memory holds, and
   * the frame counter is kept.
   */
  function OnResize(s: RendererState, width: nat, height: nat,
                    freshAccumulation: seq<Vec4>, freshPixels: seq<bv32>): (r: RendererState)
    requires width < U32 && height < U32
    requires |freshAccumulation| == AllocationSize(Dims(width, height))
    requires |freshPixels| == AllocationSize(Dims(width, height))
    ensures r.image == Some(Dims(width, height))
    ensures r.frameIndex == s.frameIndex
    ensures s.image == Some(Dims(width, height)) ==> r == s
    ensures s.image != Some(Dims(width, height)) ==>
      r.accumulation == freshAccumulation && r.pixels == freshPixels
  {
    if s.image == Some(Dims(width, height)) then
      s
    else
      RendererState(Some(Dims(width, height)), s.frameIndex, freshAccumulation, freshPixels)
  }

  /** Resizing twice to the same size is resizing once: the second call changes nothing. */
  lemma OnResizeIdempotent(s: RendererState, width: nat, height: nat,
                           acc1: seq<Vec4>, px1: seq<bv32>, acc2: seq<Vec4>, px2: seq<bv32>)
    requires width < U32 && height < U32
    requires |acc1| == |px1| == |acc2| == |px2| == AllocationSize(Dims(width, height))
    ensures var once := OnResize(s, width, height, acc1, px1);
      OnResize(once, width, height, acc2, px2) == once
  {
  }

  /**
   * The resize the accumulation needs: as OnResize, but a size change also
   * resets the frame counter to 1 so that the next frame clears the buffer.
   */
  function ResizeAndReset(s: RendererState, width: nat, height: nat,
                          freshAccumulation: seq<Vec4>, freshPixels: seq<bv32>): (r: RendererState)
    requires width < U32 && height < U32
    requires |freshAccumulation| == AllocationSize(Dims(width, height))
    requires |freshPixels| == AllocationSize(Dims(width, height))
    ensures r.image == Some(Dims(width, height))
    ensures s.image == Some(Dims(width, height)) ==> r == s
    ensures s.image != Some(Dims(width, height)) ==> r.frameIndex == 1
    ensures r.pixels == OnResize(s, width, height, freshAccumulation, freshPixels).pixels
    ensures r.accumulation == OnResize(s, width, height, freshAccumulation, freshPixels).accumulation
  {
    var resized := OnResize(s, width, height, freshAccumulation, freshPixels);
    if s.image == Some(Dims(width, height)) then resized else resized.(frameIndex := 1)
  }

  /** The sum of a pixel's samples, in the order the sample loop adds them. */
  function Sum(samples: seq<Vec3>): (r: Vec3)
    ensures |samples| == 1 ==> r == samples[0]
    ensures NonNegativeAll(samples) ==> NonNegative(r)
  {
    if |samples| == 0 then Zero3 else Add(Sum(samples[..|samples| - 1]), samples[|samples| - 1])
  }

  ghost predicate NonNegativeAll(samples: seq<Vec3>) {
    forall i :: 0 <= i < |samples| ==> NonNegative(samples[i])
  }

  /** radiance / N_MC: the mean of the samples, so n equal samples average to that sample. */
  function Average(samples: seq<Vec3>): (r: Vec3)
    requires 0 < |samples|
    ensures Scale(|samples| as real, r) == Sum(samples)
    ensures (forall i :: 0 <= i < |samples| ==> samples[i] == samples[0]) ==> r == samples[0]
    ensures NonNegativeAll(samples) ==> NonNegative(r)
  {
    var n := |samples| as real;
    SumOfCopies(samples, samples[0]);
    InverseScale(n, samples[0]);
    ScaleInverse(n, Sum(samples));
    NonNegativeScale(1.0 / n, Sum(samples));
    Scale(1.0 / n, Sum(samples))
  }

  /** n copies of v sum to n * v. */
  lemma {:induction false} SumOfCopies(samples: seq<Vec3>, v: Vec3)
    ensures (forall i :: 0 <= i < |samples| ==> samples[i] == v) ==> Sum(samples) == Scale(|samples| as real, v)
  {
    if |samples| > 0 && forall i :: 0 <= i < |samples| ==> samples[i] == v {
      var prefix := samples[..|samples| - 1];
      SumOfCopies(prefix, v);
      assert forall i :: 0 <= i < |prefix| ==> prefix[i] == v;
      var k := |prefix| as real;
      assert Sum(samples) == Add(Scale(k, v), v);
      assert Add(Scale(k, v), v) == Scale(k + 1.0, v);
    }
  }

  lemma InverseScale(n: real, v: Vec3)
    requires 0.0 < n
    ensures Scale(1.0 / n, Scale(n, v)) == v
  {
    assert (1.0 / n) * n == 1.0;
    assert (1.0 / n) * (n * v.x) == ((1.0 / n) * n) * v.x;
    assert (1.0 / n) * (n * v.y) == ((1.0 / n) * n) * v.y;
    assert (1.0 / n) * (n * v.z) == ((1.0 / n) * n) * v.z;
  }

  lemma NonNegativeScale(k: real, v: Vec3)
    requires 0.0 <= k
    ensures NonNegative(v) ==> NonNegative(Scale(k, v))
  {
    if NonNegative(v) {
      ProductNonNegative(k, v.x);
      ProductNonNegative(k, v.y);
      ProductNonNegative(k, v.z);
    }
  }

  /** One pixel's accumulator after the frame: cleared first on frame 1, then the average added with alpha 1. */
  function Accumulated(previous: Vec4, average: Vec3, frameIndex: nat): (r: Vec4)
    ensures frameIndex == 1 ==> r == Vec4(average.x, average.y, average.z, 1.0)
    ensures frameIndex != 1 ==>
      && r.r == previous.r + average.x && r.g == previous.g + average.y
      && r.b == previous.b + average.z && r.a == previous.a + 1.0
  {
    var start := if frameIndex == 1 then Zero4 else previous;
    Add4(start, Vec4(average.x, average.y, average.z, 1.0))
  }

  /** y is x clamped to [0, 1]: x itself inside, the nearer end outside. */
  predicate UnitClamped(x: real, y: real) {
    && (0.0 <= x <= 1.0 ==> y == x)
    && (1.0 < x ==> y == 1.0)
    && (x < 0.0 ==> y == 0.0)
  }

  /** The colour shown: the accumulated sum over the frame count, clamped to [0, 1]. */
  function Displayed(accumulated: Vec4, frameIndex: nat): (r: Vec4)
    requires 1 <= frameIndex
    ensures InUnitRange(r)
    ensures var mean := Scale4(1.0 / frameIndex as real, accumulated);
      && UnitClamped(mean.r, r.r) && UnitClamped(mean.g, r.g)
      && UnitClamped(mean.b, r.b) && UnitClamped(mean.a, r.a)
    ensures var mean := Scale4(1.0 / frameIndex as real, accumulated);
      InUnitRange(mean) ==> r == mean
  {
    Clamp4(Scale4(1.0 / frameIndex as real, accumulated), 0.0, 1.0)
  }

  /** Why a frame could not be rendered. */
  datatype RenderFault =
    | NoImage          // Render before the first OnResize
    | BufferTooSmall   // width * height wrapped around 2^32 when the buffers were allocated
    | NoSamples        // N_MC == 0 divides the radiance by zero

  /** Every pixel of the frame has exactly `n` samples. */
  ghost predicate FrameShape(samples: seq<seq<Vec3>>, count: nat, n: nat) {
    |samples| == count && forall i :: 0 <= i < |samples| ==> |samples[i]| == n
  }

  /**
   * Render for one frame, given each pixel's n radiance samples: update every
   * accumulator slot, show its mean, and advance the frame counter (or reset it
   * to 1 when accumulation is off).
   */
  function Render(s: RendererState, samples: seq<seq<Vec3>>, n: nat, accumulate: bool): (r: Result<RendererState, RenderFault>)
    requires 1 <= s.frameIndex
    requires s.image.Some? ==> FrameShape(samples, PixelCount(s.image.value), n)
    ensures r.Err? <==> (s.image.None? || n == 0
      || |s.accumulation| != PixelCount(s.image.value) || |s.pixels| != PixelCount(s.image.value))
    ensures r.Ok? ==> 1 <= r.value.frameIndex
    ensures r.Ok? ==> (r.value.image == s.image
      && |r.value.accumulation| == |r.value.pixels| == |s.accumulation|)
    ensures r.Ok? ==> forall i :: 0 <= i < |r.value.pixels| ==>
      && 0 < |samples[i]|
      && r.value.accumulation[i] == Accumulated(s.accumulation[i], Average(samples[i]), s.frameIndex)
      && r.value.pixels[i] == ConvertToRgba(Displayed(r.value.accumulation[i], s.frameIndex))
    ensures r.Ok? ==> r.value.frameIndex == if accumulate then s.frameIndex + 1 else 1
  {
    if s.image.None? then
      Err(NoImage)
    else
      var count := PixelCount(s.image.value);
      if |s.accumulation| != count || |s.pixels| != count then
        Err(BufferTooSmall)
      else if n == 0 then
        Err(NoSamples)
      else
        var accumulation := seq(count, i requires 0 <= i < count =>
          Accumulated(s.accumulation[i], Average(samples[i]), s.frameIndex));
        var pixels := seq(count, i requires 0 <= i < count =>
          ConvertToRgba(Displayed(accumulation[i], s.frameIndex)));
        Ok(RendererState(s.image, if accumulate then s.frameIndex + 1 else 1, accumulation, pixels))
  }

  /** Renders frame after frame with accumulation on, stopping at the first fault. */
  function RenderFrames(s: RendererState, frames: seq<seq<seq<Vec3>>>, n: nat): (r: Result<RendererState, RenderFault>)
    requires 1 <= s.frameIndex
    requires s.image.Some? ==> forall j :: 0 <= j < |frames| ==> FrameShape(frames[j], PixelCount(s.image.value), n)
    ensures r.Ok? ==> r.value.image == s.image && 1 <= r.value.frameIndex
    decreases |frames|
  {
    if |frames| == 0 then
      Ok(s)
    else
      match RenderFrames(s, frames[..|frames| - 1], n)
      case Err(e) => Err(e)
      case Ok(previous) => Render(previous, frames[|frames| - 1], n, true)
  }

  /** The sum over the frames of one pixel's per-frame averages. */
  function SumOfAverages(frames: seq<seq<seq<Vec3>>>, i: nat, n: nat): Vec3
    requires 0 < n
    requires forall j :: 0 <= j < |frames| ==> i < |frames[j]| && |frames[j][i]| == n
    decreases |frames|
  {
    if |frames| == 0 then Zero3
    else Add(SumOfAverages(frames[..|frames| - 1], i, n), Average(frames[|frames| - 1][i]))
  }

  /**
   * Starting from a reset counter, k accumulated frames leave the counter at
   * k + 1 and in each slot the sum of the k per-frame averages, with alpha k.
   */
  lemma {:induction false} AccumulationSumsFrames(s: RendererState, frames: seq<seq<seq<Vec3>>>, n: nat)
    requires s.frameIndex == 1 && s.image.Some? && 0 < n
    requires |s.accumulation| == |s.pixels| == PixelCount(s.image.value)
    requires forall j :: 0 <= j < |frames| ==> FrameShape(frames[j], PixelCount(s.image.value), n)
    ensures var r := RenderFrames(s, frames, n);
      && r.Ok?
      && r.value.frameIndex == |frames| + 1
      && |r.value.accumulation| == |r.value.pixels| == PixelCount(s.image.value)
      && (0 < |frames| ==> forall i :: 0 <= i < |r.value.accumulation| ==>
            var sum := SumOfAverages(frames, i, n);
            r.value.accumulation[i] == Vec4(sum.x, sum.y, sum.z, |frames| as real))
    decreases |frames|
  {
    var count := PixelCount(s.image.value);
    if 0 < |frames| {
      var k := |frames| - 1;
      var prefix := frames[..k];
      assert forall j :: 0 <= j < k ==> prefix[j] == frames[j];
      AccumulationSumsFrames(s, prefix, n);
      var previous := RenderFrames(s, prefix, n).value;
      var r := Render(previous, frames[k], n, true);
      assert r.Ok?;
      forall i | 0 <= i < count
        ensures var sum := SumOfAverages(frames, i, n);
          r.value.accumulation[i] == Vec4(sum.x, sum.y, sum.z, |frames| as real)
      {
        assert SumOfAverages(frames, i, n) == Add(SumOfAverages(prefix, i, n), Average(frames[k][i]));
        if k == 0 {
          assert SumOfAverages(prefix, i, n) == Zero3;
        }
      }
    }
  }

  /** After one or more accumulated frames from a reset counter, every pixel is fully opaque. */
  lemma AccumulatedFramesAreOpaque(s: RendererState, frames: seq<seq<seq<Vec3>>>, n: nat)
    requires s.frameIndex == 1 && s.image.Some? && 0 < n && 0 < |frames|
    requires |s.accumulation| == |s.pixels| == PixelCount(s.image.value)
    requires forall j :: 0 <= j < |frames| ==> FrameShape(frames[j], PixelCount(s.image.value), n)
    ensures var r := RenderFrames(s, frames, n);
      r.Ok? && forall i :: 0 <= i < |r.value.pixels| ==> r.value.pixels[i] >> 24 == 0xFF
  {
    AccumulationSumsFrames(s, frames, n);
    var k := |frames| - 1;
    var prefix := frames[..k];
    assert forall j :: 0 <= j < k ==> prefix[j] == frames[j];
    AccumulationSumsFrames(s, prefix, n);
    var previous := RenderFrames(s, prefix, n).value;
    var r := Render(previous, frames[k], n, true);
    assert r == RenderFrames(s, frames, n);
    assert previous.frameIndex == |frames|;
    forall i | 0 <= i < |r.value.pixels|
      ensures r.value.pixels[i] >> 24 == 0xFF
    {
      OpaqueWhenAlphaIsFrameCount(r.value.accumulation[i], |frames|);
    }
  }

  /** A slot whose alpha equals the frame count is shown fully opaque. */
  lemma OpaqueWhenAlphaIsFrameCount(acc: Vec4, k: nat)
    requires 1 <= k && acc.a == k as real
    ensures ConvertToRgba(Displayed(acc, k)) >> 24 == 0xFF
  {
    var kr := k as real;
    assert (1.0 / kr) * kr == 1.0;
    OpaqueAlphaByte(Displayed(acc, k));
  }

  /**
   * The resize hazard on concrete values: one accumulated 1x1 frame of white,
   * then a resize to 2x1 onto zeroed memory, then a white frame. The counter
   * is still 2, so the buffer is not cleared and the sum is halved: the pixel
   * shows grey at half alpha, 127, instead of opaque white.
   */
  lemma ResizeKeepsStaleFrameIndex() returns (s1: RendererState, s3: RendererState)
    ensures Render(RendererState(Some(Dims(1, 1)), 1, [Zero4], [0]), [[Vec3(1.0, 1.0, 1.0)]], 1, true) == Ok(s1)
    ensures OnResize(s1, 2, 1, [Zero4, Zero4], [0, 0]) == RendererState(Some(Dims(2, 1)), 2, [Zero4, Zero4], [0, 0])
    ensures Render(OnResize(s1, 2, 1, [Zero4, Zero4], [0, 0]), [[Vec3(1.0, 1.0, 1.0)], [Vec3(1.0, 1.0, 1.0)]], 1, true) == Ok(s3)
    ensures 0 < |s3.pixels| && s3.pixels[0] >> 24 == 127
  {
    var white := Vec3(1.0, 1.0, 1.0);
    s1 := FirstFrameBeforeResize(white);
    var s2 := OnResize(s1, 2, 1, [Zero4, Zero4], [0, 0]);
    assert s2 == RendererState(Some(Dims(2, 1)), 2, [Zero4, Zero4], [0, 0]);
    s3 := SecondFrameSlot(white);
    HalfAlphaShown(s3.accumulation[0]);
  }

  /** The frame before the resize: a reset 1x1 image accumulates one white sample, and the counter moves to 2. */
  lemma FirstFrameBeforeResize(white: Vec3) returns (s1: RendererState)
    requires white == Vec3(1.0, 1.0, 1.0)
    ensures var s0 := RendererState(Some(Dims(1, 1)), 1, [Zero4], [0]);
      Render(s0, [[white]], 1, true) == Ok(s1)
    ensures s1.image == Some(Dims(1, 1)) && s1.frameIndex == 2
    ensures s1.accumulation == [Vec4(1.0, 1.0, 1.0, 1.0)]
  {
    var s0 := RendererState(Some(Dims(1, 1)), 1, [Zero4], [0]);
    assert PixelCount(Dims(1, 1)) == 1;
    assert FrameShape([[white]], 1, 1);
    s1 := Render(s0, [[white]], 1, true).value;
    assert s1.accumulation[0] == Accumulated(Zero4, Average([white]), 1);
    AverageOfOne(white);
  }

  /** The frame after the resize: counter 2 over a zeroed 2x1 buffer, one white sample per pixel. */
  lemma SecondFrameAfterResize(white: Vec3)
    requires white == Vec3(1.0, 1.0, 1.0)
    ensures var s2 := RendererState(Some(Dims(2, 1)), 2, [Zero4, Zero4], [0, 0]);
      var s3 := Render(s2, [[white], [white]], 1, true);
      s3.Ok? && s3.value.pixels[0] >> 24 == 127
  {
    var s3 := SecondFrameSlot(white);
    HalfAlphaShown(s3.accumulation[0]);
  }

  /** The first slot of that frame sums to (1, 1, 1, 1) and is shown over the stale counter 2. */
  lemma SecondFrameSlot(white: Vec3) returns (s3: RendererState)
    requires white == Vec3(1.0, 1.0, 1.0)
    ensures var s2 := RendererState(Some(Dims(2, 1)), 2, [Zero4, Zero4], [0, 0]);
      Render(s2, [[white], [white]], 1, true) == Ok(s3)
    ensures |s3.pixels| == |s3.accumulation| == 2
    ensures s3.accumulation[0] == Vec4(1.0, 1.0, 1.0, 1.0)
    ensures s3.pixels[0] == ConvertToRgba(Displayed(s3.accumulation[0], 2))
  {
    var s2 := RendererState(Some(Dims(2, 1)), 2, [Zero4, Zero4], [0, 0]);
    var frame := [[white], [white]];
    assert PixelCount(Dims(2, 1)) == 2;
    assert FrameShape(frame, 2, 1);
    var r := Render(s2, frame, 1, true);
    s3 := r.value;
    assert s3.accumulation[0] == Accumulated(Zero4, Average(frame[0]), 2);
    AverageOfOne(white);
    assert Average(frame[0]) == white;
  }

  /** A single sample is its own average. */
  lemma AverageOfOne(v: Vec3)
    ensures Average([v]) == v
  {
    assert Sum([v]) == v;
  }

  lemma HalfAlphaShown(acc: Vec4)
    requires acc == Vec4(1.0, 1.0, 1.0, 1.0)
    ensures ConvertToRgba(Displayed(acc, 2)) >> 24 == 127
  {
    var shown := Displayed(acc, 2);
    assert shown == Vec4(0.5, 0.5, 0.5, 0.5);
    QuantizeHalf();
    assert Unpack(ConvertToRgba(shown)).a == 127;
  }

  /**
   * With the counter reset on a size change, the first frame after the resize
   * ignores whatever the fresh buffer holds: each slot is that frame's average
   * with alpha 1, and every pixel is opaque.
   */
  lemma ResizeAndResetClearsHistory(s: RendererState, width: nat, height: nat,
                                    freshAccumulation: seq<Vec4>, freshPixels: seq<bv32>,
                                    samples: seq<seq<Vec3>>, n: nat)
    requires width < U32 && height < U32 && width * height < U32
    requires |freshAccumulation| == |freshPixels| == AllocationSize(Dims(width, height))
    requires s.image != Some(Dims(width, height)) && 0 < n
    requires FrameShape(samples, width * height, n)
    ensures var resized := ResizeAndReset(s, width, height, freshAccumulation, freshPixels);
      var r := Render(resized, samples, n, true);
      && r.Ok?
      && (forall i :: 0 <= i < |r.value.accumulation| ==>
            var avg := Average(samples[i]);
            r.value.accumulation[i] == Vec4(avg.x, avg.y, avg.z, 1.0))
      && (forall i :: 0 <= i < |r.value.pixels| ==> r.value.pixels[i] >> 24 == 0xFF)
  {
    var resized := ResizeAndReset(s, width, height, freshAccumulation, freshPixels);
    assert AllocationSize(Dims(width, height)) == width * height;
    var r := Render(resized, samples, n, true);
    forall i | 0 <= i < |r.value.pixels|
      ensures r.value.pixels[i] >> 24 == 0xFF
    {
      OpaqueWhenAlphaIsFrameCount(r.value.accumulation[i], 1);
    }
  }
}

=== FILE: integrator.dfy ===
/**
 * The path integrator Renderer::Li: trace the ray, return the sky on a miss,
 * otherwise seed the result with the hit material's emission, decide by
 * Russian roulette whether to continue, and if so sample a diffuse bounce and
 * add its weighted contribution.
 *
 * The random draws are an explicit stream: one roulette draw per hit, then two
 * hemisphere draws per surviving bounce. The recursion is bounded by the
 * length of the stream; running out of draws is reported as a fault, as are
 * the states the source leaves undefined.
 */
module Integrator {
  import opened Vectors
  import opened Materials
  import opened Scenes
  import opened Sampling
  import opened Intersection

  /** The colour returned for a ray that leaves the scene. */
  const Sky: Vec3 := Vec3(0.5, 0.6, 0.8)

  /** MIN_BOUNCES: Russian roulette starts at this depth. */
  const MinBounces: int := 3

  /** The cap on the continuation probability. */
  const RouletteCap: real := 0.99

  /** Why a path could not be evaluated. */
  datatype Fault =
    | DrawsExhausted           // the draw stream ended before the path did
    | MaterialIndexOutOfRange  // the source indexes past the material list
    | NoMetallicBranch         // the sampler has no return for a metallic material
    | DegenerateNormal         // a zero-radius sphere's normal is normalize(0)

  /** Every draw of a uniform generator on [0, 1). */
  ghost predicate UnitDraws(draws: seq<real>) {
    forall i :: 0 <= i < |draws| ==> 0.0 <= draws[i] < 1.0
  }

  function MaxChannel(v: Vec3): real {
    Max(Max(v.x, v.y), v.z)
  }

  /**
   * rr_prob: certain continuation below MinBounces, afterwards the largest
   * throughput channel clamped to [0, RouletteCap].
   */
  function RouletteProbability(bounce: int, throughput: Vec3): (p: real)
    ensures bounce < MinBounces ==> p == 1.0
    ensures MinBounces <= bounce ==> 0.0 <= p <= RouletteCap
    ensures MinBounces <= bounce ==>
      p == RouletteCap || p == 0.0 || p == throughput.x || p == throughput.y || p == throughput.z
    ensures MinBounces <= bounce && p < RouletteCap ==>
      throughput.x <= p && throughput.y <= p && throughput.z <= p
    ensures MinBounces <= bounce && 0.0 < p ==>
      RouletteCap <= throughput.x || RouletteCap <= throughput.y || RouletteCap <= throughput.z || p == MaxChannel(throughput)
  {
    if bounce < MinBounces then 1.0 else Clamp(MaxChannel(throughput), 0.0, RouletteCap)
  }

  /** A draw in [0, 1) never ends a path before MinBounces. */
  lemma NoRouletteBeforeMinBounces(bounce: int, throughput: Vec3, u: real)
    requires bounce < MinBounces && 0.0 <= u < 1.0
    ensures u < RouletteProbability(bounce, throughput)
  {
  }

  /** The material the hit sphere names, if its index is in range. */
  function HitMaterial(scene: Scene, hit: HitPayload): (r: Option<Material>)
    requires hit.Hit? ==> hit.objectIndex < |scene.spheres|
    ensures r.Some? ==> hit.Hit? && r.value in scene.materials
    ensures r.Some? ==>
      (hit.Hit? && 0 <= scene.spheres[hit.objectIndex].materialIndex < |scene.materials| &&
       r.value == scene.materials[scene.spheres[hit.objectIndex].materialIndex])
    ensures hit.Hit? ==> (r.Some? <==> 0 <= scene.spheres[hit.objectIndex].materialIndex < |scene.materials|)
  {
    if hit.Miss? then None
    else
      var index := scene.spheres[hit.objectIndex].materialIndex;
      if 0 <= index < |scene.materials| then Some(scene.materials[index]) else None
  }

  /**
   * Which density the diffuse sampler divides by. The program as written uses
   * the constant 1/pi (Sampler.cpp), so a bounce is weighted by cos * albedo;
   * the cosine-weighted density cos/pi, which matches the directions drawn,
   * weighs it by the albedo alone.
   */
  datatype Density = ConstantDensity | CosineDensity

  /** The multiplier a diffuse bounce in direction `dir` returns under `density`. */
  function Weight(density: Density, normal: Vec3, dir: Vec3, albedo: Vec3): Vec3 {
    match density
    case ConstantDensity => Scale(Dot(normal, dir), albedo)
    case CosineDensity => albedo
  }

  /** sampler.sample under the chosen density. */
  function Scattered(density: Density, mat: Material, normal: Vec3, u1: real, u2: real, m: MathLib): (r: Option<Scatter>)
    requires Sound(m)
    requires normal != Zero3
    requires 0.0 <= u1 < 1.0
    ensures r.Some? <==> mat.kind == Diffuse
    ensures r.Some? ==> r.value.direction == LocalToWorld(CosineWeightedHemisphere(u1, u2, m), normal, m)
    ensures r.Some? ==> 0.0 < Dot(normal, r.value.direction)
    ensures r.Some? ==> r.value.multiplier == Weight(density, normal, r.value.direction, mat.albedo)
    ensures r.Some? && NonNegative(mat.albedo) ==> NonNegative(r.value.multiplier)
  {
    DrawnCosinePositive(normal, u1, u2, m);
    match density
    case ConstantDensity =>
      ScaleNonNegative(Dot(normal, LocalToWorld(CosineWeightedHemisphere(u1, u2, m), normal, m)), mat.albedo);
      SampleAsWritten(mat, normal, u1, u2, m)
    case CosineDensity => Sample(mat, normal, u1, u2, m)
  }

  lemma ScaleNonNegative(c: real, a: Vec3)
    requires 0.0 <= c
    ensures NonNegative(a) ==> NonNegative(Scale(c, a))
  {
    if NonNegative(a) {
      ProductNonNegative(c, a.x);
      ProductNonNegative(c, a.y);
      ProductNonNegative(c, a.z);
    }
  }

  /**
   * Li(ray, bounce, throughput) with the draws it consumes: the sky on a miss,
   * otherwise the hit's bounce. `density` selects the sampler: ConstantDensity
   * is the program as written.
   */
  function Li(density: Density, scene: Scene, ray: Ray, bounce: int, throughput: Vec3, draws: seq<real>, m: MathLib)
    : (r: Result<Vec3, Fault>)
    requires Sound(m)
    requires UnitDraws(draws)
    ensures TraceRay(scene, ray, m).Miss? ==> r == Ok(Sky)
    decreases |draws|, 1
  {
    var hit := TraceRay(scene, ray, m);
    if HitDistance(hit) < Eps then
      Ok(Sky)
    else
      match HitMaterial(scene, hit)
      case None => Err(MaterialIndexOutOfRange)
      case Some(mat) => Bounce(density, scene, hit, mat, bounce, throughput, draws, m)
  }

  /**
   * What Li does at a hit on material `mat`: seed with the emission, play
   * Russian roulette, and if the path survives add the sampled bounce's
   * contribution.
   */
  function Bounce(density: Density, scene: Scene, hit: HitPayload, mat: Material, bounce: int, throughput: Vec3,
                  draws: seq<real>, m: MathLib): (r: Result<Vec3, Fault>)
    requires Sound(m)
    requires UnitDraws(draws)
    requires hit.Hit?
    ensures 0 < |draws| && RouletteProbability(bounce, throughput) <= draws[0] ==> r == Ok(Emission(mat))
    ensures 3 <= |draws| && draws[0] < RouletteProbability(bounce, throughput) && hit.normal != Zero3 ==>
      (mat.kind == Metallic ==> r == Err(NoMetallicBranch))
    decreases |draws|, 0
  {
    var radiance := Emission(mat);
    var rr := RouletteProbability(bounce, throughput);
    if |draws| == 0 then
      Err(DrawsExhausted)
    else if draws[0] >= rr then
      Ok(radiance)
    else if |draws| < 3 then
      Err(DrawsExhausted)
    else if hit.normal == Zero3 then
      Err(DegenerateNormal)
    else
      match Scattered(density, mat, hit.normal, draws[1], draws[2], m)
      case None => Err(NoMetallicBranch)
      case Some(scatter) =>
        var next := Ray(hit.position, scatter.direction);
        var weight := Scale(1.0 / rr, Mul(throughput, scatter.multiplier));
        var tail := draws[3..];
        assert UnitDraws(tail) by {
          assert forall i :: 0 <= i < |tail| ==> tail[i] == draws[i + 3];
        }
        Continue(radiance, rr, scatter.multiplier, Li(density, scene, next, bounce + 1, weight, tail, m))
  }

  /**
   * The tail of a surviving bounce: a fault below passes up unchanged,
   * otherwise the incoming radiance, weighted by the multiplier over rr_prob,
   * is added to the emission.
   */
  function Continue(emission: Vec3, rr: real, multiplier: Vec3, rest: Result<Vec3, Fault>): (r: Result<Vec3, Fault>)
    requires rr != 0.0
    ensures rest.Err? <==> r.Err?
    ensures rest.Err? ==> r == rest
    ensures rest.Ok? && rr == 1.0 ==> r.value == Add(emission, Mul(multiplier, rest.value))
    ensures rest.Ok? ==> Scale(rr, Sub(r.value, emission)) == Mul(multiplier, rest.value)
  {
    match rest
    case Err(e) => Err(e)
    case Ok(incoming) =>
      var weighted := Scale(1.0 / rr, Mul(multiplier, incoming));
      assert rr == 1.0 ==> weighted == Mul(multiplier, incoming);
      assert Sub(Add(emission, weighted), emission) == weighted;
      ScaleInverse(rr, Mul(multiplier, incoming));
      Ok(Add(emission, weighted))
  }

  /** A hit sphere whose material index is valid ends the path with its emission when the roulette draw fails. */
  lemma LiRouletteStopReturnsEmission(density: Density, scene: Scene, ray: Ray, bounce: int, throughput: Vec3,
                                      draws: seq<real>, m: MathLib)
    requires Sound(m) && UnitDraws(draws)
    requires TraceRay(scene, ray, m).Hit?
    requires HitMaterial(scene, TraceRay(scene, ray, m)).Some?
    requires 0 < |draws| && RouletteProbability(bounce, throughput) <= draws[0]
    ensures Li(density, scene, ray, bounce, throughput, draws, m) == Ok(Emission(HitMaterial(scene, TraceRay(scene, ray, m)).value))
  {
  }

  /**
   * Before MinBounces a diffuse hit always scatters, and the bounce contributes
   * exactly the multiplier times the incoming radiance, with no roulette
   * weight; the throughput passed down is throughput times the multiplier. As
   * written the multiplier is cos * albedo; with the cosine density it is the
   * albedo.
   */
  lemma EarlyBounceWeighsByMultiplier(density: Density, scene: Scene, hit: HitPayload, mat: Material, bounce: int,
                                      throughput: Vec3, draws: seq<real>, m: MathLib)
    requires Sound(m) && UnitDraws(draws)
    requires bounce < MinBounces && 3 <= |draws|
    requires hit.Hit? && hit.normal != Zero3 && mat.kind == Diffuse
    ensures var scatter := Scattered(density, mat, hit.normal, draws[1], draws[2], m).value;
      var w := scatter.multiplier;
      var rest := Li(density, scene, Ray(hit.position, scatter.direction), bounce + 1, Mul(throughput, w), draws[3..], m);
      && w == Weight(density, hit.normal, scatter.direction, mat.albedo)
      && (rest.Err? ==> Bounce(density, scene, hit, mat, bounce, throughput, draws, m) == rest)
      && (rest.Ok? ==> Bounce(density, scene, hit, mat, bounce, throughput, draws, m) == Ok(Add(Emission(mat), Mul(w, rest.value))))
  {
    var rr := RouletteProbability(bounce, throughput);
    assert rr == 1.0 && draws[0] < rr;
    var next, weight, w := ScatterStep(density, scene, hit, mat, bounce, throughput, draws, m);
    UnitScale(rr, Mul(throughput, w));
  }

  /** Every material emits and reflects non-negatively. */
  ghost predicate NonNegativeMaterials(scene: Scene) {
    forall i :: 0 <= i < |scene.materials| ==>
      && 0.0 <= scene.materials[i].emissionPower
      && NonNegative(scene.materials[i].emissionColor)
      && NonNegative(scene.materials[i].albedo)
  }

  /** With non-negative materials every radiance Li computes is non-negative, under either density. */
  lemma {:induction false} LiNonNegative(density: Density, scene: Scene, ray: Ray, bounce: int, throughput: Vec3,
                                         draws: seq<real>, m: MathLib)
    requires Sound(m) && UnitDraws(draws)
    requires NonNegativeMaterials(scene)
    ensures var r := Li(density, scene, ray, bounce, throughput, draws, m);
      r.Ok? ==> NonNegative(r.value)
    decreases |draws|, 2
  {
    var hit := TraceRay(scene, ray, m);
    if HitDistance(hit) >= Eps && HitMaterial(scene, hit).Some? {
      var mat := HitMaterial(scene, hit).value;
      var k :| 0 <= k < |scene.materials| && scene.materials[k] == mat;
      BounceNonNegative(density, scene, hit, mat, bounce, throughput, draws, m);
    }
  }

  /** The bounce at a hit on a non-negative material is non-negative. */
  lemma {:induction false} BounceNonNegative(density: Density, scene: Scene, hit: HitPayload, mat: Material, bounce: int,
                                             throughput: Vec3, draws: seq<real>, m: MathLib)
    requires Sound(m) && UnitDraws(draws) && hit.Hit?
    requires NonNegativeMaterials(scene)
    requires 0.0 <= mat.emissionPower && NonNegative(mat.emissionColor) && NonNegative(mat.albedo)
    ensures var r := Bounce(density, scene, hit, mat, bounce, throughput, draws, m);
      r.Ok? ==> NonNegative(r.value)
    decreases |draws|, 1
  {
    EmissionNonNegative(mat);
    if 3 <= |draws| && draws[0] < RouletteProbability(bounce, throughput) && hit.normal != Zero3 && mat.kind == Diffuse {
      ScatterNonNegative(density, scene, hit, mat, bounce, throughput, draws, m);
    }
  }

  /** The surviving, scattering case of BounceNonNegative: emission plus a non-negative weighted contribution. */
  lemma {:induction false} ScatterNonNegative(density: Density, scene: Scene, hit: HitPayload, mat: Material, bounce: int,
                                              throughput: Vec3, draws: seq<real>, m: MathLib)
    requires Sound(m) && UnitDraws(draws) && hit.Hit?
    requires NonNegativeMaterials(scene)
    requires 0.0 <= mat.emissionPower && NonNegative(mat.emissionColor) && NonNegative(mat.albedo)
    requires 3 <= |draws| && draws[0] < RouletteProbability(bounce, throughput)
    requires hit.normal != Zero3 && mat.kind == Diffuse
    ensures var r := Bounce(density, scene, hit, mat, bounce, throughput, draws, m);
      r.Ok? ==> NonNegative(r.value)
    decreases |draws|, 0
  {
    EmissionNonNegative(mat);
    var next, weight, w := ScatterStep(density, scene, hit, mat, bounce, throughput, draws, m);
    LiNonNegative(density, scene, next, bounce + 1, weight, draws[3..], m);
    ContinueNonNegative(Emission(mat), RouletteProbability(bounce, throughput), w,
                        Li(density, scene, next, bounce + 1, weight, draws[3..], m));
  }

  /**
   * One surviving diffuse bounce, unfolded: the sampler's multiplier w is the
   * density's weight (cos * albedo as written), and the result continues with
   * Li along the sampled ray `next` with throughput * w / rr_prob.
   */
  lemma ScatterStep(density: Density, scene: Scene, hit: HitPayload, mat: Material, bounce: int, throughput: Vec3,
                    draws: seq<real>, m: MathLib)
      returns (next: Ray, weight: Vec3, w: Vec3)
    requires Sound(m) && UnitDraws(draws) && hit.Hit?
    requires 3 <= |draws| && draws[0] < RouletteProbability(bounce, throughput)
    requires hit.normal != Zero3 && mat.kind == Diffuse
    ensures 0.0 < RouletteProbability(bounce, throughput)
    ensures UnitDraws(draws[3..])
    ensures var scatter := Scattered(density, mat, hit.normal, draws[1], draws[2], m).value;
      && w == scatter.multiplier
      && w == Weight(density, hit.normal, scatter.direction, mat.albedo)
      && next == Ray(hit.position, scatter.direction)
    ensures NonNegative(mat.albedo) ==> NonNegative(w)
    ensures weight == Scale(1.0 / RouletteProbability(bounce, throughput), Mul(throughput, w))
    ensures Bounce(density, scene, hit, mat, bounce, throughput, draws, m)
            == Continue(Emission(mat), RouletteProbability(bounce, throughput), w,
                        Li(density, scene, next, bounce + 1, weight, draws[3..], m))
  {
    var tail := draws[3..];
    assert UnitDraws(tail) by {
      assert forall i :: 0 <= i < |tail| ==> tail[i] == draws[i + 3];
    }
    var scatter := Scattered(density, mat, hit.normal, draws[1], draws[2], m).value;
    w := scatter.multiplier;
    next := Ray(hit.position, scatter.direction);
    weight := Scale(1.0 / RouletteProbability(bounce, throughput), Mul(throughput, w));
  }

  /** Continuing from a non-negative emission and multiplier with non-negative incoming radiance stays non-negative. */
  lemma ContinueNonNegative(e: Vec3, rr: real, a: Vec3, rest: Result<Vec3, Fault>)
    requires 0.0 < rr && NonNegative(e) && NonNegative(a)
    requires rest.Ok? ==> NonNegative(rest.value)
    ensures var r := Continue(e, rr, a, rest);
      r.Ok? ==> NonNegative(r.value)
  {
    if rest.Ok? {
      WeightedNonNegative(1.0 / rr, a, rest.value);
      AddNonNegative(e, Scale(1.0 / rr, Mul(a, rest.value)));
    }
  }

  lemma UnitScale(k: real, v: Vec3)
    requires k == 1.0
    ensures Scale(1.0 / k, v) == v
  {
  }

  lemma AddNonNegative(u: Vec3, v: Vec3)
    requires NonNegative(u) && NonNegative(v)
    ensures NonNegative(Add(u, v))
  {
  }

  lemma WeightedNonNegative(k: real, a: Vec3, v: Vec3)
    requires 0.0 < k && NonNegative(a) && NonNegative(v)
    ensures NonNegative(Scale(k, Mul(a, v)))
  {
    ProductNonNegative(a.x, v.x);
    ProductNonNegative(a.y, v.y);
    ProductNonNegative(a.z, v.z);
    ProductNonNegative(k, a.x * v.x);
    ProductNonNegative(k, a.y * v.y);
    ProductNonNegative(k, a.z * v.z);
  }
}

=== FILE: intersection.dfy ===
/**
 * Ray casting against the scene's spheres (Renderer::TraceRay, ClosestHit
 * and Miss): per sphere the nearer root of the ray's quadratic that lies at
 * least `Eps` ahead, across spheres the first strictly nearest one.
 */
module Intersection {
  import opened Vectors
  import opened Scenes

  datatype Ray = Ray(origin: Vec3, direction: Vec3)

  /** The `eps` of the source (0.0001f): hits closer than this are ignored. */
  const Eps: real := 0.0001

  /** std::numeric_limits<float>::max(), the initial hit distance. */
  const FloatMax: real := 340282346638528859811704183484516925440.0

  /** The coefficients of a t^2 + b t + c = 0, whose roots are where the ray meets the sphere. */
  datatype Quadratic = Quadratic(a: real, b: real, c: real)

  /** The ray's origin relative to the sphere's centre. */
  function Offset(sphere: Sphere, ray: Ray): Vec3 {
    Sub(ray.origin, sphere.position)
  }

  function Coefficients(sphere: Sphere, ray: Ray): Quadratic {
    var o := Offset(sphere, ray);
    Quadratic(Dot(ray.direction, ray.direction), 2.0 * Dot(o, ray.direction),
              Dot(o, o) - sphere.radius * sphere.radius)
  }

  function Discriminant(q: Quadratic): real {
    q.b * q.b - 4.0 * q.a * q.c
  }

  predicate IsRoot(q: Quadratic, t: real) {
    q.a * t * t + q.b * t + q.c == 0.0
  }

  /** The point the ray reaches after travelling t times its direction. */
  function At(ray: Ray, t: real): Vec3 {
    Add(ray.origin, Scale(t, ray.direction))
  }

  /**
   * The distance one sphere offers: none for a negative discriminant, else the
   * smaller root if it is at least Eps, else the larger root if it is, else
   * none. A zero direction (a == 0) yields none: the source divides by zero
   * there and its NaN fails every later comparison.
   */
  function Candidate(sphere: Sphere, ray: Ray, m: MathLib): (r: Option<real>)
    requires Sound(m)
    ensures Discriminant(Coefficients(sphere, ray)) < 0.0 ==> r.None?
    ensures r.Some? ==> Eps <= r.value && IsRoot(Coefficients(sphere, ray), r.value)
  {
    var q := Coefficients(sphere, ray);
    var disc := Discriminant(q);
    if disc < 0.0 || q.a == 0.0 then
      None
    else
      var s := m.sqrt(disc);
      var near := (-q.b - s) / (2.0 * q.a);
      if Eps <= near then
        RootFormula(q, s, near);
        Some(near)
      else
        var far := (-q.b + s) / (2.0 * q.a);
        if Eps <= far then
          RootFormula(q, s, far);
          Some(far)
        else
          None
  }

  /** Both values of the quadratic formula are roots. */
  lemma RootFormula(q: Quadratic, s: real, t: real)
    requires q.a != 0.0
    requires s * s == Discriminant(q)
    requires t == (-q.b - s) / (2.0 * q.a) || t == (-q.b + s) / (2.0 * q.a)
    ensures IsRoot(q, t)
  {
    var w := 2.0 * q.a * t + q.b;
    assert w == -s || w == s;
    SquaredEither(w, s);
    RootFromSquare(q.a, q.b, q.c, t, w, s);
  }

  lemma SquaredEither(w: real, s: real)
    requires w == -s || w == s
    ensures w * w == s * s
  {
  }

  lemma RootFromSquare(a: real, b: real, c: real, t: real, w: real, s: real)
    requires a != 0.0
    requires w == 2.0 * a * t + b
    requires w * w == s * s && s * s == b * b - 4.0 * a * c
    ensures a * t * t + b * t + c == 0.0
  {
    var e := a * t * t + b * t + c;
    QuadraticCompletion(a, b, c, t, w);
    assert 4.0 * a * e == 0.0;
    assert e == (4.0 * a * e) / (4.0 * a);
  }

  /** A root of a quadratic with a != 0 is one of the two values of the formula. */
  lemma RootIsNearOrFar(q: Quadratic, s: real, t: real)
    requires q.a != 0.0
    requires s * s == Discriminant(q)
    requires IsRoot(q, t)
    ensures t == (-q.b - s) / (2.0 * q.a) || t == (-q.b + s) / (2.0 * q.a)
  {
    var a, b, c := q.a, q.b, q.c;
    var w := 2.0 * a * t + b;
    QuadraticCompletion(a, b, c, t, w);
    assert (w - s) * (w + s) == 0.0;
    ZeroProduct(w - s, w + s);
    assert t == (w - b) / (2.0 * a);
  }

  /** Completing the square: (2at + b)^2 == 4a(at^2 + bt + c) + b^2 - 4ac. */
  lemma QuadraticCompletion(a: real, b: real, c: real, t: real, w: real)
    requires w == 2.0 * a * t + b
    ensures w * w == 4.0 * a * (a * t * t + b * t + c) + b * b - 4.0 * a * c
  {
  }

  lemma ZeroProduct(x: real, y: real)
    requires x * y == 0.0
    ensures x == 0.0 || y == 0.0
  {
    if x != 0.0 {
      assert y == (x * y) / x;
    }
  }

  /** With a positive leading coefficient, a negative discriminant leaves no root. */
  lemma NoRootWhenDiscriminantNegative(q: Quadratic, t: real)
    requires 0.0 < q.a && Discriminant(q) < 0.0
    ensures !IsRoot(q, t)
  {
    var a, b, c := q.a, q.b, q.c;
    var w := 2.0 * a * t + b;
    var w' := w;
    SquareSign(w, w');
    var e := a * t * t + b * t + c;
    assert 4.0 * a * e == w * w' - Discriminant(q) by {
      assert w * w' == 4.0 * a * a * t * t + 4.0 * a * b * t + b * b;
    }
    assert 0.0 < 4.0 * a * e;
    ProductPositiveNonZero(4.0 * a, e);
  }

  lemma ProductPositiveNonZero(x: real, y: real)
    requires 0.0 < x * y
    ensures y != 0.0
  {
    assert y == 0.0 ==> x * y == 0.0;
  }

  /** The nearer formula value never exceeds the farther one. */
  lemma NearBeforeFar(a: real, b: real, s: real)
    requires 0.0 < a && 0.0 <= s
    ensures (-b - s) / (2.0 * a) <= (-b + s) / (2.0 * a)
  {
    var k := 1.0 / (2.0 * a);
    assert (-b - s) / (2.0 * a) == k * (-b - s);
    assert (-b + s) / (2.0 * a) == k * (-b + s);
    ProductNonNegative(k, 2.0 * s);
    assert k * (-b + s) - k * (-b - s) == k * (2.0 * s);
  }

  /** The ray's leading coefficient is its squared length: zero only for a zero direction. */
  lemma LeadingCoefficient(sphere: Sphere, ray: Ray)
    ensures 0.0 <= Coefficients(sphere, ray).a
    ensures Coefficients(sphere, ray).a == 0.0 <==> ray.direction == Zero3
  {
    PositiveSquareNonZero(ray.direction);
  }

  /**
   * The candidate is the nearest intersection at least Eps ahead: it is at most
   * every root there, and for a non-zero direction there is no such root
   * exactly when there is no candidate.
   */
  lemma CandidateIsNearestRoot(sphere: Sphere, ray: Ray, m: MathLib)
    requires Sound(m)
    ensures var r := Candidate(sphere, ray, m);
      r.Some? ==> forall t :: Eps <= t && IsRoot(Coefficients(sphere, ray), t) ==> r.value <= t
    ensures var r := Candidate(sphere, ray, m);
      ray.direction != Zero3 && r.None? ==>
        forall t :: Eps <= t ==> !IsRoot(Coefficients(sphere, ray), t)
  {
    var q := Coefficients(sphere, ray);
    var r := Candidate(sphere, ray, m);
    LeadingCoefficient(sphere, ray);
    var disc := Discriminant(q);
    if disc < 0.0 {
      if ray.direction != Zero3 {
        forall t | Eps <= t
          ensures !IsRoot(q, t)
        {
          NoRootWhenDiscriminantNegative(q, t);
        }
      }
    } else if q.a != 0.0 {
      var s := m.sqrt(disc);
      assert 0.0 <= s && s * s == disc;
      var near := (-q.b - s) / (2.0 * q.a);
      var far := (-q.b + s) / (2.0 * q.a);
      assert r == (if Eps <= near then Some(near) else if Eps <= far then Some(far) else None);
      forall t | Eps <= t && IsRoot(q, t)
        ensures r.Some? && r.value <= t
      {
        FormulaPicksNearest(q, s, t);
      }
    }
  }

  /** A root at least Eps ahead is no nearer than the formula value the selection takes. */
  lemma FormulaPicksNearest(q: Quadratic, s: real, t: real)
    requires 0.0 < q.a && 0.0 <= s && s * s == Discriminant(q)
    requires Eps <= t && IsRoot(q, t)
    ensures var near, far := (-q.b - s) / (2.0 * q.a), (-q.b + s) / (2.0 * q.a);
      if Eps <= near then near <= t else Eps <= far && far <= t
  {
    RootIsNearOrFar(q, s, t);
    NearBeforeFar(q.a, q.b, s);
  }

  /** The sphere point the ray reaches: its squared distance from the centre is radius^2 exactly at a root. */
  lemma RootsLieOnSphere(sphere: Sphere, ray: Ray, t: real)
    ensures var p := Sub(At(ray, t), sphere.position);
      IsRoot(Coefficients(sphere, ray), t) <==> Dot(p, p) == sphere.radius * sphere.radius
  {
    var o := Offset(sphere, ray);
    var d := ray.direction;
    var p := Sub(At(ray, t), sphere.position);
    assert p == Add(o, Scale(t, d));
    var q := Coefficients(sphere, ray);
    assert Dot(p, p) == q.a * t * t + q.b * t + Dot(o, o) by {
      ExpandSquare(o.x, d.x, t);
      ExpandSquare(o.y, d.y, t);
      ExpandSquare(o.z, d.z, t);
    }
  }

  lemma ExpandSquare(o: real, d: real, t: real)
    ensures (o + t * d) * (o + t * d) == d * d * t * t + 2.0 * (o * d) * t + o * o
  {
  }

  /** The nearest sphere found so far and its distance. */
  datatype Nearest = Nearest(index: nat, distance: real)

  /** A candidate the scan can select: present and below the initial hit distance. */
  predicate Eligible(c: Option<real>) {
    c.Some? && c.value < FloatMax
  }

  /**
   * The loop of TraceRay over `spheres` in order: a sphere's candidate replaces
   * the current best only when strictly nearer, starting from FloatMax.
   */
  function Scan(spheres: seq<Sphere>, ray: Ray, m: MathLib): (r: Option<Nearest>)
    requires Sound(m)
    ensures r.None? <==> forall i :: 0 <= i < |spheres| ==> !Eligible(Candidate(spheres[i], ray, m))
    ensures r.Some? ==> r.value.index < |spheres|
    ensures r.Some? ==> Candidate(spheres[r.value.index], ray, m) == Some(r.value.distance)
    ensures r.Some? ==> r.value.distance < FloatMax
    ensures r.Some? ==> forall i :: 0 <= i < |spheres| && Candidate(spheres[i], ray, m).Some? ==>
      r.value.distance <= Candidate(spheres[i], ray, m).value
    ensures r.Some? ==> forall i :: 0 <= i < r.value.index && Candidate(spheres[i], ray, m).Some? ==>
      r.value.distance < Candidate(spheres[i], ray, m).value
    decreases |spheres|
  {
    if |spheres| == 0 then
      None
    else
      var last := |spheres| - 1;
      var prefix := spheres[..last];
      var prev := Scan(prefix, ray, m);
      assert forall i :: 0 <= i < last ==> prefix[i] == spheres[i];
      var best := if prev.Some? then prev.value.distance else FloatMax;
      var c := Candidate(spheres[last], ray, m);
      if c.Some? && c.value < best then
        Some(Nearest(last, c.value))
      else
        prev
  }

  /**
   * The selection rule pins the scan down: a sphere whose candidate is eligible,
   * nearest, and strictly nearer than every earlier one is the one chosen.
   */
  lemma ScanSelectsFirstNearest(spheres: seq<Sphere>, ray: Ray, m: MathLib, j: nat, d: real)
    requires Sound(m)
    requires j < |spheres| && Candidate(spheres[j], ray, m) == Some(d) && d < FloatMax
    requires forall i :: 0 <= i < |spheres| && Candidate(spheres[i], ray, m).Some? ==>
      d <= Candidate(spheres[i], ray, m).value
    requires forall i :: 0 <= i < j && Candidate(spheres[i], ray, m).Some? ==>
      d < Candidate(spheres[i], ray, m).value
    ensures Scan(spheres, ray, m) == Some(Nearest(j, d))
  {
    var r := Scan(spheres, ray, m);
    assert Eligible(Candidate(spheres[j], ray, m));
    var k, dist := r.value.index, r.value.distance;
    assert dist <= d;
    assert d <= dist;
  }

  /** What TraceRay hands back: Miss, or the nearest hit's data. */
  datatype HitPayload =
    | Miss
    | Hit(distance: real, position: Vec3, normal: Vec3, objectIndex: nat)

  /** HitPayload::HitDistance; Miss sets it to -1. */
  function HitDistance(p: HitPayload): real {
    match p
    case Miss => -1.0
    case Hit(d, _, _, _) => d
  }

  /**
   * ClosestHit: the hit point is computed relative to the centre, normalised
   * there for the normal, and moved back to world space.
   */
  function ClosestHit(ray: Ray, t: real, index: nat, sphere: Sphere, m: MathLib): (r: HitPayload)
    requires Sound(m)
    ensures r.Hit? && r.distance == t && r.objectIndex == index
    ensures r.position == At(ray, t)
    ensures r.normal == Normalize(Sub(r.position, sphere.position), m)
  {
    var local := Add(Offset(sphere, ray), Scale(t, ray.direction));
    var position := Add(local, sphere.position);
    assert Sub(position, sphere.position) == local;
    assert position == At(ray, t);
    Hit(t, position, Normalize(local, m), index)
  }

  /**
   * At a root on a sphere of non-zero radius the normal has unit length and
   * points from the centre through the hit point.
   */
  lemma HitNormalIsRadial(sphere: Sphere, ray: Ray, t: real, index: nat, m: MathLib)
    requires Sound(m)
    requires sphere.radius != 0.0 && IsRoot(Coefficients(sphere, ray), t)
    ensures var h := ClosestHit(ray, t, index, sphere, m);
      && Dot(h.normal, h.normal) == 1.0
      && exists k :: 0.0 < k && h.normal == Scale(k, Sub(h.position, sphere.position))
  {
    var p := Sub(At(ray, t), sphere.position);
    RootOffCentre(sphere, ray, t);
    var h := ClosestHit(ray, t, index, sphere, m);
    assert Sub(h.position, sphere.position) == p;
    assert h.normal == Normalize(p, m);
  }

  lemma RootOffCentre(sphere: Sphere, ray: Ray, t: real)
    requires sphere.radius != 0.0 && IsRoot(Coefficients(sphere, ray), t)
    ensures Sub(At(ray, t), sphere.position) != Zero3
  {
    var p := Sub(At(ray, t), sphere.position);
    RootsLieOnSphere(sphere, ray, t);
    RadiusSquareNonZero(Dot(p, p), sphere.radius, sphere.radius);
  }

  lemma RadiusSquareNonZero(d: real, radius: real, radius': real)
    requires radius == radius' && radius != 0.0 && d == radius * radius'
    ensures d != 0.0
  {
    SquareSign(radius, radius');
  }

  /** TraceRay over the scene's spheres. */
  function TraceRay(scene: Scene, ray: Ray, m: MathLib): (r: HitPayload)
    requires Sound(m)
    ensures r.Miss? <==> forall i :: 0 <= i < |scene.spheres| ==> !Eligible(Candidate(scene.spheres[i], ray, m))
    ensures r.Miss? ==> HitDistance(r) == -1.0
    ensures r.Hit? ==> Eps <= HitDistance(r) < FloatMax
    ensures r.Hit? ==> r.objectIndex < |scene.spheres|
    ensures r.Hit? ==> Candidate(scene.spheres[r.objectIndex], ray, m) == Some(r.distance)
    ensures r.Hit? ==> forall i :: 0 <= i < |scene.spheres| && Candidate(scene.spheres[i], ray, m).Some? ==>
      r.distance <= Candidate(scene.spheres[i], ray, m).value
    ensures r.Hit? ==> forall i :: 0 <= i < r.objectIndex && Candidate(scene.spheres[i], ray, m).Some? ==>
      r.distance < Candidate(scene.spheres[i], ray, m).value
    ensures r.Hit? ==> r.position == At(ray, r.distance)
  {
    match Scan(scene.spheres, ray, m)
    case None => Miss
    case Some(n) => ClosestHit(ray, n.distance, n.index, scene.spheres[n.index], m)
  }

  /** Adding a sphere never pushes the nearest hit further away, and never turns a hit into a miss. */
  lemma AddSphereKeepsOrImprovesHit(scene: Scene, sphere: Sphere, ray: Ray, m: MathLib)
    requires Sound(m)
    ensures var before := TraceRay(scene, ray, m);
      var after := TraceRay(AddSphere(scene, sphere), ray, m);
      before.Hit? ==> after.Hit? && after.distance <= before.distance
  {
    var before := TraceRay(scene, ray, m);
    var after := TraceRay(AddSphere(scene, sphere), ray, m);
    var grown := AddSphere(scene, sphere).spheres;
    if before.Hit? {
      var j := before.objectIndex;
      assert grown[j] == scene.spheres[j];
      assert Eligible(Candidate(grown[j], ray, m));
    }
  }
}

=== FILE: materials.dfy ===
/**
 * Surface materials (Material.hpp): a flat record with a type tag, default
 * values for every field, and the emitted radiance derived from it.
 */
module Materials {
  import opened Vectors

  /** The closed set of material kinds. */
  datatype MaterialType = Diffuse | Metallic

  datatype Material = Material(
    name: string,
    albedo: Vec3,
    roughness: real,
    metallic: real,
    emissionColor: Vec3,
    emissionPower: real,
    kind: MaterialType)

  /** A default-constructed `Material`. */
  const DefaultMaterial: Material :=
    Material("White Default", Vec3(1.0, 1.0, 1.0), 1.0, 0.0, Zero3, 0.0, Diffuse)

  /** GetEmission: the emission colour scaled by the emission power. */
  function Emission(mat: Material): (r: Vec3)
    ensures mat.emissionPower == 0.0 || mat.emissionColor == Zero3 ==> r == Zero3
  {
    Scale(mat.emissionPower, mat.emissionColor)
  }

  /** Emission is linear in the power: each channel is power times colour. */
  lemma EmissionChannels(mat: Material)
    ensures Emission(mat).x == mat.emissionPower * mat.emissionColor.x
    ensures Emission(mat).y == mat.emissionPower * mat.emissionColor.y
    ensures Emission(mat).z == mat.emissionPower * mat.emissionColor.z
    ensures mat.emissionPower == 0.0 || mat.emissionColor == Zero3 ==> Emission(mat) == Zero3
  {
  }

  /** A default material emits nothing and is a white diffuse reflector. */
  lemma DefaultMaterialIsDarkWhiteDiffuse()
    ensures Emission(DefaultMaterial) == Zero3
    ensures DefaultMaterial.albedo == Vec3(1.0, 1.0, 1.0)
    ensures DefaultMaterial.kind == Diffuse
  {
  }

  /** Non-negative power and colour give non-negative emission. */
  lemma EmissionNonNegative(mat: Material)
    requires 0.0 <= mat.emissionPower && NonNegative(mat.emissionColor)
    ensures NonNegative(Emission(mat))
  {
    ProductNonNegative(mat.emissionPower, mat.emissionColor.x);
    ProductNonNegative(mat.emissionPower, mat.emissionColor.y);
    ProductNonNegative(mat.emissionPower, mat.emissionColor.z);
  }
}

=== FILE: pixels.dfy ===
/**
 * Utils::ConvertToRGBA: a colour with channels in [0, 1] becomes four bytes,
 * each the channel times 255 truncated, packed little-end first into one
 * 32-bit word: r in bits 0-7, g in 8-15, b in 16-23, a in 24-31.
 */
module Pixels {
  import opened Vectors

  /** The four bytes of one packed pixel. */
  datatype Rgba = Rgba(r: bv8, g: bv8, b: bv8, a: bv8)

  /**
   * The float-to-uint8 conversion of channel * 255: truncation, which is the
   * floor for the non-negative values a clamped channel gives. Values outside
   * [0, 1] would make that conversion undefined, so they are excluded.
   */
  function Quantize(c: real): (q: bv8)
    requires 0.0 <= c <= 1.0
    ensures q as int == (c * 255.0).Floor
  {
    var n := (c * 255.0).Floor;
    FloorInByteRange(c);
    ByteOf(n)
  }

  lemma FloorInByteRange(c: real)
    requires 0.0 <= c <= 1.0
    ensures 0 <= (c * 255.0).Floor <= 255
  {
    assert 0.0 <= c * 255.0 <= 255.0;
  }

  /** The byte holding a whole number in [0, 255]. */
  function ByteOf(n: int): (b: bv8)
    requires 0 <= n < 256
    ensures b as int == n
  {
    n as bv8
  }

  /** The byte is the largest whole number not above c * 255; the ends map to 0 and 255. */
  lemma QuantizeTruncates(c: real)
    requires 0.0 <= c <= 1.0
    ensures var n := Quantize(c) as int; n as real <= c * 255.0 < n as real + 1.0
    ensures c == 0.0 ==> Quantize(c) == 0
    ensures c == 1.0 ==> Quantize(c) == 255
  {
    FloorBounds(c * 255.0);
  }

  /** Half intensity truncates to 127, one step below the midpoint byte. */
  lemma QuantizeHalf()
    ensures Quantize(0.5) == 127
  {
    assert (0.5 * 255.0).Floor == 127;
    ByteOfInt(Quantize(0.5));
  }

  lemma ByteOfInt(q: bv8)
    requires q as int == 127
    ensures q == 127
  {
  }

  lemma FloorBounds(x: real)
    ensures x.Floor as real <= x < x.Floor as real + 1.0
  {
  }

  /** The shift-and-or packing of four bytes into a word: the bytes never overlap, so it is their positional sum. */
  function Pack(p: Rgba): (w: bv32)
    ensures w == p.a as bv32 * 0x100_0000 + p.b as bv32 * 0x1_0000 + p.g as bv32 * 0x100 + p.r as bv32
  {
    DisjointBytes(p.a, p.b, p.g, p.r);
    (p.a as bv32 << 24) | (p.b as bv32 << 16) | (p.g as bv32 << 8) | p.r as bv32
  }

  lemma DisjointBytes(a: bv8, b: bv8, g: bv8, r: bv8)
    ensures (a as bv32 << 24) | (b as bv32 << 16) | (g as bv32 << 8) | r as bv32
      == a as bv32 * 0x100_0000 + b as bv32 * 0x1_0000 + g as bv32 * 0x100 + r as bv32
  {
  }

  /** Reads the four bytes back out of a word. */
  function Unpack(w: bv32): Rgba {
    Rgba((w & 0xFF) as bv8, ((w >> 8) & 0xFF) as bv8, ((w >> 16) & 0xFF) as bv8, (w >> 24) as bv8)
  }

  /** Unpacking recovers the four bytes that were packed. */
  lemma UnpackPack(p: Rgba)
    ensures Unpack(Pack(p)) == p
  {
  }

  /** Every word is the packing of its own bytes: the encoding is a bijection. */
  lemma PackUnpack(w: bv32)
    ensures Pack(Unpack(w)) == w
  {
  }

  /** ConvertToRGBA for a colour whose channels lie in [0, 1]. */
  function ConvertToRgba(color: Vec4): (w: bv32)
    requires InUnitRange(color)
    ensures Unpack(w) == Rgba(Quantize(color.r), Quantize(color.g), Quantize(color.b), Quantize(color.a))
  {
    var p := Rgba(Quantize(color.r), Quantize(color.g), Quantize(color.b), Quantize(color.a));
    UnpackPack(p);
    Pack(p)
  }

  /** An opaque pixel (alpha 1) has 0xFF in its top byte. */
  lemma OpaqueAlphaByte(color: Vec4)
    requires InUnitRange(color) && color.a == 1.0
    ensures ConvertToRgba(color) >> 24 == 0xFF
  {
    var w := ConvertToRgba(color);
    QuantizeTruncates(color.a);
    assert Unpack(w).a == 255;
  }
}

=== FILE: sampling.dfy ===
/**
 * The diffuse BSDF sampler (Sampler.cpp): an orthonormal basis around the
 * surface normal, a cosine-weighted direction on the local hemisphere, and
 * the throughput multiplier `cos * eval / pdf` handed back to the integrator.
 *
 * `SampleAsWritten` keeps the source's density of 1/pi; `Sample` uses the
 * density cos/pi of the directions actually drawn, which is what makes the
 * multiplier equal the albedo. `Integrator.Scattered` calls `SampleAsWritten`
 * under `ConstantDensity`, which is the program, and `Sample` only under
 * `CosineDensity`.
 */
module Sampling {
  import opened Vectors
  import opened Materials

  /** The two tangent vectors `ons` completes the normal with. */
  datatype Basis = Basis(tangent: Vec3, bitangent: Vec3)

  /** A sampled outgoing direction with its throughput multiplier. */
  datatype Scatter = Scatter(direction: Vec3, multiplier: Vec3)

  /** True when `ons` takes its first branch (projection onto the plane y = 0). */
  predicate ProjectsOntoXZ(v: Vec3) {
    Abs(v.x) > Abs(v.y)
  }

  /** The squared length `ons` takes the square root of, in the branch it takes. */
  function OnsDenominator(v: Vec3): real {
    if ProjectsOntoXZ(v) then v.x * v.x + v.z * v.z else v.y * v.y + v.z * v.z
  }

  /**
   * The branch choice keeps the denominator away from zero for every non-zero
   * vector: the first branch has x != 0, and in the second a zero y^2 + z^2
   * would force x = 0 as well.
   */
  lemma OnsDenominatorPositive(v: Vec3)
    requires v != Zero3
    ensures 0.0 < OnsDenominator(v)
  {
    var u := v;
    if ProjectsOntoXZ(v) {
      assert v.x != 0.0;
      TwoSquaresPositive(v.x, u.x, v.z, u.z);
    } else {
      assert v.y != 0.0 || v.z != 0.0;
      TwoSquaresPositive(v.y, u.y, v.z, u.z);
    }
  }

  lemma TwoSquaresPositive(p: real, p': real, q: real, q': real)
    requires p == p' && q == q'
    requires p != 0.0 || q != 0.0
    ensures 0.0 < p * p' + q * q'
  {
    SquareSign(p, p');
    SquareSign(q, q');
  }

  /** Scaling a planar vector of squared length d by 1/sqrt(d) gives unit length. */
  lemma InverseLengthIsUnit(p: real, q: real, d: real, s: real, k: real)
    requires 0.0 < d && d == p * p + q * q
    requires s * s == d && k * s == 1.0
    ensures (p * k) * (p * k) + (q * k) * (q * k) == 1.0
  {
    assert (p * k) * (p * k) + (q * k) * (q * k) == d * (k * k);
    assert d * (k * k) == (s * k) * (s * k);
  }

  /**
   * ons: completes a non-zero vector v1 with a unit tangent orthogonal to it
   * and the bitangent v1 x tangent.
   */
  function Ons(v1: Vec3, m: MathLib): (r: Basis)
    requires Sound(m)
    requires v1 != Zero3
    ensures Dot(r.tangent, v1) == 0.0
    ensures Dot(r.tangent, r.tangent) == 1.0
    ensures r.bitangent == Cross(v1, r.tangent)
    ensures Dot(r.bitangent, v1) == 0.0 && Dot(r.bitangent, r.tangent) == 0.0
  {
    OnsDenominatorPositive(v1);
    var d := OnsDenominator(v1);
    var s := m.sqrt(d);
    var invLen := 1.0 / s;
    TangentIsUnitOrthogonal(v1, d, s, invLen);
    var t := Tangent(v1, invLen);
    CrossOrthogonal(v1, t);
    Basis(t, Cross(v1, t))
  }

  /** For a unit normal, ons gives an orthonormal frame: the bitangent has unit length too. */
  lemma OnsOrthonormal(v1: Vec3, m: MathLib)
    requires Sound(m)
    requires Dot(v1, v1) == 1.0
    ensures v1 != Zero3
    ensures var r := Ons(v1, m); Dot(r.bitangent, r.bitangent) == 1.0
  {
    assert v1 != Zero3;
    var r := Ons(v1, m);
    Lagrange(v1, r.tangent);
    assert Dot(v1, r.tangent) == 0.0;
  }

  /** The tangent ons picks, before the bitangent is formed: the planar perpendicular scaled by k. */
  function Tangent(v1: Vec3, k: real): Vec3 {
    if ProjectsOntoXZ(v1) then Vec3(-v1.z * k, 0.0, v1.x * k)
    else Vec3(0.0, v1.z * k, -v1.y * k)
  }

  lemma TangentIsUnitOrthogonal(v1: Vec3, d: real, s: real, k: real)
    requires d == OnsDenominator(v1) && 0.0 < d
    requires s * s == d && k == 1.0 / s
    ensures Dot(Tangent(v1, k), v1) == 0.0
    ensures Dot(Tangent(v1, k), Tangent(v1, k)) == 1.0
  {
    assert s != 0.0;
    assert k * s == 1.0;
    if ProjectsOntoXZ(v1) {
      InverseLengthIsUnit(-v1.z, v1.x, d, s, k);
    } else {
      InverseLengthIsUnit(v1.z, -v1.y, d, s, k);
    }
  }

  lemma DotAddLeft(a: Vec3, b: Vec3, n: Vec3)
    ensures Dot(Add(a, b), n) == Dot(a, n) + Dot(b, n)
  {
  }

  lemma DotScaleLeft(k: real, a: Vec3, n: Vec3)
    ensures Dot(Scale(k, a), n) == k * Dot(a, n)
  {
  }

  lemma DotScaleSelf(k: real, n: Vec3)
    ensures Dot(Scale(k, n), n) == k * Dot(n, n)
  {
    var u := n;
    DotScaleLeft(k, u, n);
  }

  /**
   * local_to_world: the local direction's z axis becomes the normal, so the
   * world direction's projection on n is local.z times |n|^2 (local.z itself
   * for a unit normal).
   */
  function LocalToWorld(local: Vec3, n: Vec3, m: MathLib): (r: Vec3)
    requires Sound(m)
    requires n != Zero3
    ensures Dot(r, n) == local.z * Dot(n, n)
  {
    var basis := Ons(n, m);
    var a := Scale(local.x, basis.tangent);
    var b := Scale(local.y, basis.bitangent);
    var c := Scale(local.z, n);
    assert Dot(a, n) == 0.0 by {
      DotScaleLeft(local.x, basis.tangent, n);
      assert Dot(basis.tangent, n) == 0.0;
    }
    assert Dot(b, n) == 0.0 by {
      DotScaleLeft(local.y, basis.bitangent, n);
      assert Dot(basis.bitangent, n) == 0.0;
    }
    assert Dot(Add(a, b), n) == 0.0 by {
      DotAddLeft(a, b, n);
    }
    assert Dot(c, n) == local.z * Dot(n, n) by {
      DotScaleSelf(local.z, n);
    }
    DotAddLeft(Add(a, b), c, n);
    Add(Add(a, b), c)
  }

  lemma PolarRadius(r: real, c: real, s: real)
    requires c * c + s * s == 1.0
    ensures (r * c) * (r * c) + (r * s) * (r * s) == r * r
  {
    assert (r * c) * (r * c) + (r * s) * (r * s) == (r * r) * (c * c + s * s);
  }

  /**
   * cosine_weighted_hemisphere for the draws u1 and u2: a unit direction in
   * the upper hemisphere (z > 0) whose squared distance from the z axis is u1.
   */
  function CosineWeightedHemisphere(u1: real, u2: real, m: MathLib): (r: Vec3)
    requires Sound(m)
    requires 0.0 <= u1 < 1.0
    ensures 0.0 < r.z
    ensures r.x * r.x + r.y * r.y == u1
    ensures Dot(r, r) == 1.0
  {
    var radius := m.sqrt(u1);
    var theta := 2.0 * Pi * u2;
    var z := m.sqrt(1.0 - u1);
    assert radius * radius == u1;
    assert z * z == 1.0 - u1;
    assert z != 0.0;
    PolarRadius(radius, m.cos(theta), m.sin(theta));
    Vec3(radius * m.cos(theta), radius * m.sin(theta), z)
  }

  /** eval for a diffuse material: the Lambertian BRDF albedo / pi. */
  function EvalDiffuse(albedo: Vec3): Vec3 {
    Scale(1.0 / Pi, albedo)
  }

  /** pdf for a diffuse material, as written: the constant 1 / pi. */
  function PdfAsWritten(): real {
    1.0 / Pi
  }

  /** The density of a cosine-weighted direction whose cosine with the normal is c. */
  function CosinePdf(c: real): real {
    c / Pi
  }

  /** eval / pdf as written cancels the two factors of pi and leaves the albedo. */
  lemma EvalOverPdfAsWritten(albedo: Vec3)
    ensures Scale(1.0 / PdfAsWritten(), EvalDiffuse(albedo)) == albedo
  {
    assert (1.0 / (1.0 / Pi)) * (1.0 / Pi) == 1.0;
  }

  /**
   * sample as written: for a diffuse material the multiplier is
   * cos * eval / pdf with pdf = 1/pi, i.e. cos times the albedo, where cos is
   * the cosine of the drawn direction with the normal; a metallic material has
   * no branch (the source falls off the end without returning).
   */
  function SampleAsWritten(mat: Material, normal: Vec3, u1: real, u2: real, m: MathLib): (r: Option<Scatter>)
    requires Sound(m)
    requires normal != Zero3
    requires 0.0 <= u1 < 1.0
    ensures r.Some? <==> mat.kind == Diffuse
    ensures r.Some? ==> r.value.direction == LocalToWorld(CosineWeightedHemisphere(u1, u2, m), normal, m)
    ensures r.Some? ==> r.value.multiplier == Scale(Dot(normal, r.value.direction), mat.albedo)
  {
    if mat.kind == Diffuse then
      var localDir := CosineWeightedHemisphere(u1, u2, m);
      var worldDir := LocalToWorld(localDir, normal, m);
      var cosTheta := Dot(normal, worldDir);
      var r := Scale(1.0 / PdfAsWritten(), Scale(cosTheta, EvalDiffuse(mat.albedo)));
      assert r == Scale(cosTheta, mat.albedo) by {
        CosineTimesEvalOverPdfAsWritten(cosTheta, mat.albedo);
      }
      Some(Scatter(worldDir, r))
    else
      None
  }

  lemma CosineTimesEvalOverPdfAsWritten(c: real, albedo: Vec3)
    ensures Scale(1.0 / PdfAsWritten(), Scale(c, EvalDiffuse(albedo))) == Scale(c, albedo)
  {
    var k := 1.0 / (1.0 / Pi);
    assert k * (1.0 / Pi) == 1.0;
    assert k * (c * ((1.0 / Pi) * albedo.x)) == c * albedo.x;
    assert k * (c * ((1.0 / Pi) * albedo.y)) == c * albedo.y;
    assert k * (c * ((1.0 / Pi) * albedo.z)) == c * albedo.z;
  }

  /**
   * The as-written multiplier is the albedo darkened by the cosine: for a unit
   * normal and non-negative albedo it is component-wise non-negative and never
   * exceeds the albedo.
   */
  lemma SampleAsWrittenScalesByCosine(mat: Material, normal: Vec3, u1: real, u2: real, m: MathLib)
    requires Sound(m)
    requires Dot(normal, normal) == 1.0
    requires 0.0 <= u1 < 1.0
    requires mat.kind == Diffuse && NonNegative(mat.albedo)
    ensures normal != Zero3
    ensures var r := SampleAsWritten(mat, normal, u1, u2, m);
      && r.Some?
      && r.value.multiplier == Scale(m.sqrt(1.0 - u1), mat.albedo)
      && NonNegative(r.value.multiplier)
      && r.value.multiplier.x <= mat.albedo.x
      && r.value.multiplier.y <= mat.albedo.y
      && r.value.multiplier.z <= mat.albedo.z
  {
    PositiveSquareNonZero(normal);
    var local := CosineWeightedHemisphere(u1, u2, m);
    var r := SampleAsWritten(mat, normal, u1, u2, m);
    var c := local.z;
    assert Dot(normal, r.value.direction) == c by {
      assert Dot(r.value.direction, normal) == c * Dot(normal, normal);
    }
    assert c == m.sqrt(1.0 - u1);
    assert c * c == 1.0 - u1;
    AtMostOne(c);
    ScaleWithin(c, mat.albedo);
  }

  lemma AtMostOne(c: real)
    requires 0.0 < c && c * c <= 1.0
    ensures c <= 1.0
  {
    SquareAboveOne(c);
  }

  lemma SquareAboveOne(c: real)
    ensures 1.0 < c ==> 1.0 < c * c
  {
    if 1.0 < c {
      ProductPositive(c - 1.0, c);
    }
  }

  lemma ScaleWithin(c: real, a: Vec3)
    requires 0.0 <= c <= 1.0 && NonNegative(a)
    ensures NonNegative(Scale(c, a))
    ensures Scale(c, a).x <= a.x && Scale(c, a).y <= a.y && Scale(c, a).z <= a.z
  {
    ProductNonNegative(c, a.x);
    ProductNonNegative(c, a.y);
    ProductNonNegative(c, a.z);
    ProductNonNegative(1.0 - c, a.x);
    ProductNonNegative(1.0 - c, a.y);
    ProductNonNegative(1.0 - c, a.z);
  }

  /**
   * The discrepancy on one draw: straight down the z axis with u1 = 0.75 the
   * drawn direction has cosine 1/2, so a white diffuse surface hands back
   * (1/2, 1/2, 1/2) instead of its albedo (1, 1, 1).
   */
  lemma SampleAsWrittenHalvesWhite(m: MathLib)
    requires Sound(m)
    ensures var r := SampleAsWritten(DefaultMaterial, Vec3(0.0, 0.0, 1.0), 0.75, 0.0, m);
      r.Some? && r.value.multiplier == Vec3(0.5, 0.5, 0.5) && r.value.multiplier != DefaultMaterial.albedo
  {
    var normal := Vec3(0.0, 0.0, 1.0);
    var white := DefaultMaterial;
    assert white.albedo == Vec3(1.0, 1.0, 1.0) && white.kind == Diffuse;
    SampleAsWrittenScalesByCosine(white, normal, 0.75, 0.0, m);
    var r := SampleAsWritten(white, normal, 0.75, 0.0, m);
    assert r.value.multiplier == Scale(m.sqrt(0.25), white.albedo);
    SqrtUnique(m, 0.25, 0.5);
  }

  /**
   * sample with the density of the directions it draws: the multiplier
   * cos * eval / pdf is exactly the albedo, and the direction lies in the
   * hemisphere of the normal.
   */
  function Sample(mat: Material, normal: Vec3, u1: real, u2: real, m: MathLib): (r: Option<Scatter>)
    requires Sound(m)
    requires normal != Zero3
    requires 0.0 <= u1 < 1.0
    ensures r.Some? <==> mat.kind == Diffuse
    ensures r.Some? ==> r.value.multiplier == mat.albedo
    ensures r.Some? ==> 0.0 < Dot(normal, r.value.direction)
    ensures r.Some? ==> r.value.direction == LocalToWorld(CosineWeightedHemisphere(u1, u2, m), normal, m)
  {
    if mat.kind == Diffuse then
      var localDir := CosineWeightedHemisphere(u1, u2, m);
      var worldDir := LocalToWorld(localDir, normal, m);
      var cosTheta := Dot(normal, worldDir);
      DrawnCosinePositive(normal, u1, u2, m);
      CosineCancels(cosTheta, mat.albedo);
      Some(Scatter(worldDir, Scale(1.0 / CosinePdf(cosTheta), Scale(cosTheta, EvalDiffuse(mat.albedo)))))
    else
      None
  }

  /** A drawn direction never leaves the normal's hemisphere. */
  lemma DrawnCosinePositive(normal: Vec3, u1: real, u2: real, m: MathLib)
    requires Sound(m)
    requires normal != Zero3
    requires 0.0 <= u1 < 1.0
    ensures 0.0 < Dot(normal, LocalToWorld(CosineWeightedHemisphere(u1, u2, m), normal, m))
  {
    var local := CosineWeightedHemisphere(u1, u2, m);
    var w := LocalToWorld(local, normal, m);
    PositiveSquareNonZero(normal);
    assert Dot(w, normal) == local.z * Dot(normal, normal);
    ProductPositive(local.z, Dot(normal, normal));
    assert Dot(normal, w) == Dot(w, normal);
  }

  lemma ProductPositive(x: real, y: real)
    requires 0.0 < x && 0.0 < y
    ensures 0.0 < x * y
  {
  }

  lemma Reassociate(k: real, c: real, a: real)
    ensures k * (c * a) == (k * c) * a
  {
  }

  lemma CosineCancels(c: real, albedo: Vec3)
    requires c != 0.0
    ensures Scale(1.0 / CosinePdf(c), Scale(c, EvalDiffuse(albedo))) == albedo
  {
    var k := 1.0 / (c / Pi);
    assert k * c == Pi;
    var q := 1.0 / Pi;
    assert Pi * q == 1.0;
    Reassociate(k, c, q * albedo.x);
    Reassociate(k, c, q * albedo.y);
    Reassociate(k, c, q * albedo.z);
  }
}

=== FILE: scenes.dfy ===
/**
 * Scene data (Sphere.hpp, Scene.hpp) and the scene-building operations of
 * Scene.cpp. A sphere's identity is its position in `spheres`.
 */
module Scenes {
  import opened Vectors
  import opened Materials

  datatype Sphere = Sphere(position: Vec3, radius: real, materialIndex: int)

  /** A default-constructed `Sphere`. */
  const DefaultSphere: Sphere := Sphere(Zero3, 0.5, 0)

  /** A default sphere sits at the origin with radius 1/2 and names the first material. */
  lemma DefaultSphereFields()
    ensures DefaultSphere.position == Vec3(0.0, 0.0, 0.0)
    ensures DefaultSphere.radius == 0.5 && DefaultSphere.materialIndex == 0
  {
  }

  datatype Scene = Scene(spheres: seq<Sphere>, materials: seq<Material>)

  /** Appends one sphere; nothing already in the scene moves or changes. */
  function AddSphere(scene: Scene, sphere: Sphere): (r: Scene)
    ensures |r.spheres| == |scene.spheres| + 1
    ensures r.spheres[|scene.spheres|] == sphere
    ensures forall i :: 0 <= i < |scene.spheres| ==> r.spheres[i] == scene.spheres[i]
    ensures r.materials == scene.materials
  {
    scene.(spheres := scene.spheres + [sphere])
  }

  /** The three-argument overload: builds the sphere from its fields and appends it. */
  function AddSphereAt(scene: Scene, position: Vec3, radius: real, materialIndex: int): (r: Scene)
    ensures |r.spheres| == |scene.spheres| + 1
    ensures r.spheres[..|scene.spheres|] == scene.spheres
    ensures r.spheres[|scene.spheres|] == Sphere(position, radius, materialIndex)
    ensures r.materials == scene.materials
  {
    AddSphere(scene, Sphere(position, radius, materialIndex))
  }

  /**
   * AddMaterial takes every material field and, as written, does nothing with
   * them: the scene comes back as it was.
   */
  function AddMaterial(scene: Scene, name: string, albedo: Vec3, roughness: real,
                       metallic: real, emissionColor: Vec3, emissionPower: real,
                       kind: MaterialType, indexOut: real, indexIn: real): (r: Scene)
    ensures r.spheres == scene.spheres && r.materials == scene.materials
    ensures |r.materials| == |scene.materials|
  {
    scene
  }
}

=== FILE: vectors.dfy ===
/**
 * Exact stand-ins for the glm vector types the renderer computes with.
 * Components are reals; the float rounding of the original is not modelled.
 * The elementary functions sqrt, cos and sin are not definable here, so they
 * travel as a `MathLib` value and every property that needs them assumes the
 * laws collected in `Sound`.
 */
module Vectors {

  datatype Option<+T> = None | Some(value: T)

  datatype Result<+T, +E> = Ok(value: T) | Err(error: E)

  /** glm::vec3 */
  datatype Vec3 = Vec3(x: real, y: real, z: real)

  /** glm::vec4 (colour with alpha) */
  datatype Vec4 = Vec4(r: real, g: real, b: real, a: real)

  const Zero3: Vec3 := Vec3(0.0, 0.0, 0.0)
  const Zero4: Vec4 := Vec4(0.0, 0.0, 0.0, 0.0)

  /** M_PI as the source spells it */
  const Pi: real := 3.14159265358979323846

  function Add(u: Vec3, v: Vec3): Vec3 {
    Vec3(u.x + v.x, u.y + v.y, u.z + v.z)
  }

  function Sub(u: Vec3, v: Vec3): Vec3 {
    Vec3(u.x - v.x, u.y - v.y, u.z - v.z)
  }

  function Scale(k: real, v: Vec3): Vec3 {
    Vec3(k * v.x, k * v.y, k * v.z)
  }

  /** Scaling by 1/n and then by n gives the vector back. */
  lemma ScaleInverse(n: real, v: Vec3)
    requires n != 0.0
    ensures Scale(n, Scale(1.0 / n, v)) == v
  {
    assert n * (1.0 / n) == 1.0;
    assert n * ((1.0 / n) * v.x) == (n * (1.0 / n)) * v.x;
    assert n * ((1.0 / n) * v.y) == (n * (1.0 / n)) * v.y;
    assert n * ((1.0 / n) * v.z) == (n * (1.0 / n)) * v.z;
  }

  /** Component-wise product, glm's `vec3 * vec3`. */
  function Mul(u: Vec3, v: Vec3): Vec3 {
    Vec3(u.x * v.x, u.y * v.y, u.z * v.z)
  }

  function Dot(u: Vec3, v: Vec3): real {
    u.x * v.x + u.y * v.y + u.z * v.z
  }

  function Cross(u: Vec3, v: Vec3): Vec3 {
    Vec3(u.y * v.z - u.z * v.y, u.z * v.x - u.x * v.z, u.x * v.y - u.y * v.x)
  }

  function Abs(x: real): real {
    if x < 0.0 then -x else x
  }

  /** The source's `MAX(a, b)` macro: `a > b ? a : b`. */
  function Max(a: real, b: real): real {
    if a > b then a else b
  }

  /** glm::clamp(x, lo, hi) == min(max(x, lo), hi). */
  function Clamp(x: real, lo: real, hi: real): real {
    if x < lo then lo else if x > hi then hi else x
  }

  ghost predicate NonNegative(v: Vec3) {
    0.0 <= v.x && 0.0 <= v.y && 0.0 <= v.z
  }

  function Add4(u: Vec4, v: Vec4): Vec4 {
    Vec4(u.r + v.r, u.g + v.g, u.b + v.b, u.a + v.a)
  }

  function Scale4(k: real, v: Vec4): Vec4 {
    Vec4(k * v.r, k * v.g, k * v.b, k * v.a)
  }

  function Clamp4(v: Vec4, lo: real, hi: real): Vec4 {
    Vec4(Clamp(v.r, lo, hi), Clamp(v.g, lo, hi), Clamp(v.b, lo, hi), Clamp(v.a, lo, hi))
  }

  ghost predicate InUnitRange(v: Vec4) {
    && 0.0 <= v.r <= 1.0 && 0.0 <= v.g <= 1.0
    && 0.0 <= v.b <= 1.0 && 0.0 <= v.a <= 1.0
  }

  /** The elementary functions the source calls from <cmath>. */
  datatype MathLib = MathLib(sqrt: real -> real, cos: real -> real, sin: real -> real)

  /** The laws of sqrt, cos and sin that the model relies on. */
  ghost predicate Sound(m: MathLib) {
    && (forall x :: 0.0 <= x ==> 0.0 <= m.sqrt(x) && m.sqrt(x) * m.sqrt(x) == x)
    && (forall t :: m.cos(t) * m.cos(t) + m.sin(t) * m.sin(t) == 1.0)
  }

  /**
   * glm::normalize(v) == v * inversesqrt(dot(v, v)). For the zero vector glm
   * produces NaN components; the model returns the zero vector there.
   */
  function Normalize(v: Vec3, m: MathLib): (r: Vec3)
    requires Sound(m)
    ensures v == Zero3 ==> r == Zero3
    ensures v != Zero3 ==> Dot(r, r) == 1.0
    ensures v != Zero3 ==> exists k :: 0.0 < k && r == Scale(k, v)
  {
    var d := Dot(v, v);
    PositiveSquareNonZero(v);
    if d == 0.0 then
      v
    else
      var s := m.sqrt(d);
      var k := 1.0 / s;
      assert Dot(Scale(k, v), Scale(k, v)) == k * k * d;
      assert k * k * d == 1.0 by {
        assert s * s == d;
        assert k * s == 1.0;
      }
      Scale(k, v)
  }

  /** A vector's squared length is zero exactly for the zero vector. */
  lemma PositiveSquareNonZero(v: Vec3)
    ensures Dot(v, v) == 0.0 <==> v == Zero3
    ensures 0.0 <= Dot(v, v)
  {
    // a second name for v keeps the solver from rewriting the squares away
    var u := v;
    SquareSign(u.x, v.x);
    SquareSign(u.y, v.y);
    SquareSign(u.z, v.z);
    if v == Zero3 {
      assert Dot(u, v) == 0.0;
    } else {
      assert u.x != 0.0 || u.y != 0.0 || u.z != 0.0;
      DotOfSquares(u, v);
    }
  }

  lemma DotOfSquares(u: Vec3, v: Vec3)
    requires u == v
    requires 0.0 <= u.x * v.x && 0.0 <= u.y * v.y && 0.0 <= u.z * v.z
    requires 0.0 < u.x * v.x || 0.0 < u.y * v.y || 0.0 < u.z * v.z
    ensures 0.0 < Dot(u, v)
  {
  }

  /** A product of two equal factors is non-negative, and positive off zero. */
  lemma SquareSign(x: real, y: real)
    requires x == y
    ensures 0.0 <= x * y
    ensures x != 0.0 ==> 0.0 < x * y
  {
    if x > 0.0 {
      assert 0.0 < x * y;
    } else if x < 0.0 {
      assert 0.0 < x * y;
    }
  }

  lemma ProductNonNegative(x: real, y: real)
    requires 0.0 <= x && 0.0 <= y
    ensures 0.0 <= x * y
  {
  }

  /** The cross product is orthogonal to both of its arguments. */
  lemma CrossOrthogonal(u: Vec3, v: Vec3)
    ensures Dot(Cross(u, v), u) == 0.0
    ensures Dot(Cross(u, v), v) == 0.0
  {
  }

  /** Lagrange's identity: |u x v|^2 == |u|^2 |v|^2 - (u.v)^2. */
  lemma Lagrange(u: Vec3, v: Vec3)
    ensures Dot(Cross(u, v), Cross(u, v)) == Dot(u, u) * Dot(v, v) - Dot(u, v) * Dot(u, v)
  {
  }

  /** A non-negative square root is the unique one. */
  lemma SqrtUnique(m: MathLib, x: real, y: real)
    requires Sound(m)
    requires 0.0 <= x && 0.0 <= y && y * y == x
    ensures m.sqrt(x) == y
  {
    var s := m.sqrt(x);
    assert 0.0 <= s && s * s == x;
    assert (s - y) * (s + y) == 0.0;
    if s + y != 0.0 {
      assert s - y == ((s - y) * (s + y)) / (s + y);
    }
  }
}
